=== FILE: README.md ===
# HashTable: a Dafny model of an open-addressing map with double hashing

`HashTable<K, V>` implements `java.util.Map` with an array of nullable
`Item(key, value)` slots, a `size` counter and a float load factor. A key with
hash code `c` has two hashes:

- `h1 = |(c * 17) % capacity|`;
- `h2 = |(c * 17 + 1) % capacity|`.

`put` and `remove` examine the slots `(h1 + i * h2) % capacity` for
`i = 0, 1, 2, ...`. A fresh insert that makes `loadFactor * capacity <= size`
triggers `updateTable`, which does three things:

- it copies the items into a `HashMap` snapshot (`moveItems`);
- it allocates `2 * capacity + 1` empty slots;
- it `putAll`s the snapshot back.

The reads `get`, `containsKey`, `containsValue`, `keySet`, `values` and
`entrySet` scan copies of the occupied slots and never probe.

The model is functional:

- A table is `Table(data, size, loadFactor)`, with `capacity` equal to `|data|`.
- Java's `null` is `None`.
- An exception is `Err`/`Raised`.
- A mutating call returns an `Outcome`: `Done(table, result)`, `Raised(e)`, or
  `Diverges` when `put`'s `while (true)` loop never ends. The fourth case,
  `OutOfFuel`, is explained below.
- The key's `hashCode` is a parameter `hash: K -> Int32`, and Dafny equality
  stands for `equals`.

Java's `int` arithmetic is written out. `hashCode * 17` and the `+ 1` wrap to
32 bits (`JavaLang.Wrap`), and `%` truncates toward zero (`JavaLang.Rem`).

`put`, `updateTable` and `putAll` are mutually recursive. `updateTable` re-inserts
through `put` without resetting `size`, so resizes can nest. A `fuel` argument
bounds that nesting, and `OutOfFuel` is the answer when the resizes need more
fuel than given. `Scenarios.NestedResize` shows a nesting that returns: `put`
on `new HashTable(1, 0.5f)` grows the array from 1 to 3 to 7 slots.

The model keeps the code's quirks, and proves each one in a concrete scenario:

- `put` answers with the value at slot `h1` rather than the value it replaces.
- `clear` does not empty the slots.
- After a `remove`, a later `put` can store a key twice.
- `put` can loop forever while a slot is free.
- A resize can keep the older value of a key stored twice.

The general lemmas relate the operations to the abstract map: `Snapshot`,
the map that `moveItems` builds. What they assume differs by operation:

- `updateTable`: any table.
- `get`: a table without duplicate keys.
- `put` and `putAll`: a table without duplicate keys and keys new to it.
- `remove`, and `put` of a key the table holds: the invariant `Inv`, defined
  below.

`Inv` requires three things:

- every item lies on its own probe sequence;
- no key is stored twice;
- `size` counts the occupied slots.

One `put` case has no general lemma. A key stored behind a slot that
`remove` emptied is written again at the emptied slot, so the table then
holds it twice. `Scenarios.DuplicateAfterRemove` shows this case.

Modules:

- `JavaLang`: `int` wrap-around, truncating remainder, exceptions.
- `Probing`: the two hash functions and the probe sequence.
- `HashTable`: the state, its contents, the constructors, the reads and `clear`.
- `Insertion`: `put`, `updateTable`, `putAll`.
- `Removal`: `remove`.
- `PutProperties`: what `put`, `putAll` and the resize do to the slots, to
  `size` and to the abstract map.
- `Scenarios`: concrete scenarios proved of the model, with `Integer` keys.

## Model

| member | source | states |
|---|---|---|
| JavaLang.Wrap | src/main/java/HashTable.java:49 | the result is a Java `int` congruent to the mathematical value modulo 2^32, and equals it when it already fits |
| JavaLang.Rem | src/main/java/HashTable.java:49 | Java's `%` for a positive divisor: congruent to the dividend, smaller than the divisor in magnitude, with the dividend's sign |
| Probing.HashFunction1 | src/main/java/HashTable.java:48-50 | `h1` is a slot index below `capacity`, equal to the absolute value of the wrapped `hashCode * 17` reduced modulo `capacity` |
| Probing.HashFunction2 | src/main/java/HashTable.java:52-54 | `h2` is below `capacity` and is computed the same way from the wrapped `hashCode * 17 + 1` |
| Probing.ProbePeriodic | src/main/java/HashTable.java:104 | the probe sequence `(h1 + i * h2) % capacity` repeats with period `capacity` |
| Probing.ProbeRepeats | src/main/java/HashTable.java:133 | every attempt lands on a slot that one of the first `capacity` attempts already examined |
| Probing.Probe | src/main/java/HashTable.java:104 | attempt `i` examines a slot index below `capacity`, and attempt 0 examines slot `h1`, as the `data[hash1]` test at line 94 does |
| HashTable.New | src/main/java/HashTable.java:10-20 | construction succeeds exactly for a positive capacity and a positive, non-NaN load factor, and otherwise throws `IllegalArgumentException`; the new table has `capacity` empty slots, `size` 0 and no duplicate |
| HashTable.NewWithCapacity | src/main/java/HashTable.java:22-24 | succeeds exactly for a positive capacity, with load factor 0.75 and no entries |
| HashTable.NewDefault | src/main/java/HashTable.java:26-28 | never throws, and gives 16 empty slots with load factor 0.75 |
| HashTable.EntrySet | src/main/java/HashTable.java:181-190 | the set of items held by the occupied slots |
| HashTable.KeySet | src/main/java/HashTable.java:163-170 | the set of keys held by the occupied slots |
| HashTable.Values | src/main/java/HashTable.java:172-179 | the set of values held by the occupied slots |
| HashTable.ContainsKey | src/main/java/HashTable.java:66-70 | `NullPointerException` exactly for a `null` key; otherwise true exactly when an occupied slot holds the key |
| HashTable.ContainsValue | src/main/java/HashTable.java:72-76 | `NullPointerException` exactly for a `null` value; otherwise true exactly when an occupied slot holds the value |
| HashTable.Get | src/main/java/HashTable.java:78-87 | `NullPointerException` exactly for a `null` key; otherwise `null` exactly when no slot holds the key, and a value only if some slot holds that key with that value |
| HashTable.GetSole | src/main/java/HashTable.java:78-87 | for a key stored in exactly one slot, `get` answers that slot's value |
| HashTable.GetMatchesSnapshot | src/main/java/HashTable.java:78-87 | on a table without duplicate keys, `get` answers what the `moveItems` map holds for the key, or `null` when it holds nothing |
| HashTable.Snapshot | src/main/java/HashTable.java:38-46 | the `moveItems` map has exactly the stored keys, and maps each one to a value stored with it |
| HashTable.Live | src/main/java/HashTable.java:184-188 | the scan over the occupied slots lists only items held by some slot, and lists every occupied slot's item |
| HashTable.FirstValue | src/main/java/HashTable.java:81-86 | the loop in `get` answers `null` exactly when no scanned item has the key, and otherwise a value stored with the key |
| HashTable.FirstValueIsFirst | src/main/java/HashTable.java:81-86 | the loop returns at the first item with the key: every item scanned before it has another key |
| HashTable.SnapshotCons | src/main/java/HashTable.java:40-43 | building the map slot by slot lets a later slot's item win over an earlier one with the same key |
| HashTable.Clear | src/main/java/HashTable.java:155-161 | after `clear` the table reports itself empty, yet it holds the same items in the same slots |
| Insertion.Write | src/main/java/HashTable.java:92-115 | the probing half of `put`. The item is written at the first attempt that does not meet another key, and only that slot changes. An empty slot there means a fresh insert; the key there means an overwrite, which answers with the value at slot `h1`. `Cycles` happens exactly when every attempt meets another key |
| Insertion.FindStop | src/main/java/HashTable.java:102-115 | the first attempt from `i` on that does not meet another key; every attempt before it meets one, and `None` means every attempt below `capacity` meets one |
| Insertion.OverloadedIsProduct | src/main/java/HashTable.java:117 | the model's resize test holds exactly when `loadFactor * capacity <= size` |
| Insertion.NeverStops | src/main/java/HashTable.java:102-115 | if each of the first `capacity` attempts meets another key, then every attempt does, so the loop never ends |
| Insertion.Put | src/main/java/HashTable.java:89-121 | throws `NullPointerException` exactly for a `null` key or value; a returning call keeps the load factor, never shrinks the array and leaves a valid table |
| Insertion.UpdateTable | src/main/java/HashTable.java:30-36 | never throws; a returning call leaves at least `2 * capacity + 1` slots and sets `size` to the size of the `moveItems` map |
| Insertion.ReinsertionSnapshot | src/main/java/HashTable.java:30-46 | the items re-inserted by `updateTable` have distinct keys and are exactly the entries of the `moveItems` map |
| Insertion.ReinsertionLastOfKey | src/main/java/HashTable.java:34-43 | the items re-inserted are exactly those of the slots that no later slot shares a key with, the ones `map.put` at line 42 keeps |
| Insertion.PutAll | src/main/java/HashTable.java:147-153 | throws `NullPointerException` exactly for a `null` map; a returning call keeps the load factor and never shrinks the array |
| Removal.Remove | src/main/java/HashTable.java:123-145 | `NullPointerException` exactly for a `null` key. A value comes back exactly when one of the first `capacity` attempts meets the key. In that case the first such slot is emptied and `size` drops by one; otherwise nothing changes and the answer is `null` |
| Removal.FindKey | src/main/java/HashTable.java:131-139 | the first attempt from `i` on, below `capacity`, that meets the key; no attempt before it does, and `None` means no attempt below `capacity` does |
| Removal.RemoveAtHome | src/main/java/HashTable.java:131-144 | a key stored at slot `h1` is removed from there, and its value is returned |
| Removal.RemoveFindsPlaced | src/main/java/HashTable.java:131-140 | when every item lies on its own probe sequence, `remove` finds exactly the keys the table holds |
| Removal.RemoveKeepsPlaced | src/main/java/HashTable.java:141-143 | emptying a slot keeps every other item on its probe sequence |
| Removal.RemoveKeepsCount | src/main/java/HashTable.java:141-143 | `remove` keeps `size` equal to the number of occupied slots |
| Removal.ClearSlot | src/main/java/HashTable.java:142 | without duplicates, emptying a key's slot deletes just that key from the abstract map |
| Removal.RemoveDeletes | src/main/java/HashTable.java:123-145 | under the table invariant, `remove(key)` deletes the key from the abstract map, returns the value the map held for it (or `null`) and keeps the invariant |
| Removal.RemoveThenGet | src/main/java/HashTable.java:123-145 | under the invariant, after `remove(key)` `get(key)` answers `null` and `get` of any other key is unchanged |
| PutProperties.PutUpdate | src/main/java/HashTable.java:97-100 | an overwrite keeps `size` and the capacity and replaces one slot holding the key. Its answer is the value at slot `h1`, which need not be the key's |
| PutProperties.PutAtHome | src/main/java/HashTable.java:97-100 | when slot `h1` holds the key, `put` overwrites that slot and returns its old value |
| PutProperties.PutInsert | src/main/java/HashTable.java:94-96 | a fresh insert below the threshold fills the first empty slot of the key's sequence after attempts that all met other keys. It changes no other slot and raises `size` by one |
| PutProperties.PutFreshAt | src/main/java/HashTable.java:102-108 | conversely, the first unblocked attempt finding an empty slot, below the threshold, makes `put` store the item there and return `null` |
| PutProperties.PutReplaceAt | src/main/java/HashTable.java:109-112 | conversely, the first unblocked attempt meeting the key makes `put` overwrite that slot and answer with the value at slot `h1` |
| PutProperties.PutResizes | src/main/java/HashTable.java:117-119 | the capacity grows exactly when a fresh insert reaches `loadFactor * capacity <= size` |
| PutProperties.PutGrowth | src/main/java/HashTable.java:94-119 | without a resize, `size` grows by one exactly on a fresh insert, and a resize happens exactly when that insert reaches the threshold |
| PutProperties.PutLoopsForever | src/main/java/HashTable.java:102-115 | `put` diverges when every attempt meets another key, and below the threshold only then |
| PutProperties.PutStores | src/main/java/HashTable.java:89-121 | after a returning `put` the pair is in `entrySet()`, whenever no resize happened or the key was new to a table without duplicates |
| PutProperties.PutKeepsCount | src/main/java/HashTable.java:94-119 | `put` keeps `size` equal to the number of occupied slots |
| PutProperties.PutAllKeepsCount | src/main/java/HashTable.java:147-153 | `putAll` keeps `size` equal to the number of occupied slots |
| PutProperties.PutKeepsPlaced | src/main/java/HashTable.java:89-121 | `put`, including any resizes it triggers, keeps every item on its own probe sequence |
| PutProperties.UpdateTablePlaced | src/main/java/HashTable.java:30-36 | the table `updateTable` builds has every item on its probe sequence for the new capacity |
| PutProperties.PutAllKeepsPlaced | src/main/java/HashTable.java:147-153 | `putAll` keeps every item on its probe sequence |
| PutProperties.PutNewKey | src/main/java/HashTable.java:89-121 | on a table without duplicates, `put` of a new key returns `null`, stores no duplicate and adds exactly `key -> value` to the abstract map; if the occupied-slot count matched the map's size before, it still does |
| PutProperties.UpdateTableRebuilds | src/main/java/HashTable.java:30-36 | `updateTable` keeps the abstract map, stores no key twice and leaves `size` equal to the number of occupied slots |
| PutProperties.PutAllNewKeys | src/main/java/HashTable.java:147-153 | `putAll` of distinct keys that are new to a table without duplicates adds exactly those pairs to the abstract map and stores no duplicate |
| PutProperties.PutThenGet | src/main/java/HashTable.java:78-121 | after `put` of a new key returns, `get` answers the value stored and `containsKey` answers true |
| PutProperties.PutNewKeyKeepsInv | src/main/java/HashTable.java:89-121 | `put` of a new key keeps the whole invariant and grows the abstract map by one |
| PutProperties.PutReplaceKeepsInv | src/main/java/HashTable.java:109-112 | an overwrite found by the first unblocked attempt keeps the invariant and changes only that key's value in the abstract map, while answering with the value at slot `h1` |
| PutProperties.PutAllWithinThreshold | src/main/java/HashTable.java:117-119 | while `size` stays below the threshold, `putAll` never resizes |
| PutProperties.PutAllCrossesThreshold | src/main/java/HashTable.java:117-119 | distinct new keys that carry `size` past the threshold do cause a resize |
| PutProperties.UpdateTableCapacity | src/main/java/HashTable.java:30-36 | with something to re-insert, the array ends at exactly `2 * capacity + 1` slots exactly when the re-insertion stays below the new threshold. The re-insertion counts on from the old `size`; otherwise the resizes nest |
| PutProperties.PutAllNoOutOfFuel | src/main/java/HashTable.java:147-153 | while `size` stays below the threshold, `putAll` never runs out of fuel |
| PutProperties.UpdateTableNoOutOfFuel | src/main/java/HashTable.java:30-36 | with fuel left, a resize whose re-insertion stays below the enlarged array's threshold never runs out of fuel |
| PutProperties.PutOutOfFuel | src/main/java/HashTable.java:117-119 | a `put` runs out of fuel only after a fresh insert reaches the threshold, and only when no fuel is left or the re-insertion reaches the enlarged array's threshold as well |
| Scenarios.WrongPreviousValue | src/main/java/HashTable.java:109-112 | with keys 3 and 6 in a 3-slot table, `put(6, 99)` answers 10, key 3's value, not 20 |
| Scenarios.DuplicateAfterRemove | src/main/java/HashTable.java:94-108 | after `remove(3)`, `put(6, 30)` stops at the emptied slot and stores key 6 a second time, answering `null` |
| Scenarios.DoubledKey | src/main/java/HashTable.java:56-70 | the doubled table holds key 6 twice, and `size()` counts two entries for one key |
| Scenarios.ClearKeepsItems | src/main/java/HashTable.java:155-161 | after `clear()` the table is empty by `isEmpty`, yet `get(6)` still answers 20, and `remove(3)` takes `size` to -1 |
| Scenarios.Divergence | src/main/java/HashTable.java:102-115 | in a 2-slot table holding key 1, `put(3, 30)` loops forever although slot 0 is free |
| Scenarios.CrowdedSnapshot | src/main/java/HashTable.java:38-46 | the `moveItems` map of a table holding key 8 twice keeps the item at the higher index |
| Scenarios.LostUpdate | src/main/java/HashTable.java:117-119 | `put(8, 4)` on a table already holding key 8 stores it a second time, resizes, and ends with only the old item (8, 2) |
| Scenarios.UpdateLost | src/main/java/HashTable.java:78-87 | after that `put`, `get(8)` still answers the old value 2 |
| Scenarios.NestedResize | src/main/java/HashTable.java:30-36 | `put(0, 10)` on `new HashTable(1, 0.5f)` resizes from 1 to 3 slots. The re-insertion counts `size` on to 2, which reaches 1.5 and resizes again, to 7 slots. There `size` 3 stays below 3.5. The call returns `null`, with key 0 at slot 0 and `size` 1 |
| Scenarios.NestedResizeOutOfFuel | src/main/java/HashTable.java:117-119 | the same `put` with one unit of fuel runs out in the inner resize |

## Left out

- Insertion.Write: the `int` index `hash1 + i * hash2` is not wrapped. The model
  reports `Diverges` whenever every attempt meets another key. With `hash2 > 0`,
  Java's index overflows after about 2^31 / hash2 attempts. The first wrapped
  index is negative, so its remainder is negative or 0. A negative remainder
  makes indexing throw `ArrayIndexOutOfBoundsException`; a remainder of 0
  makes Java read, and possibly write, slot 0. Above capacity 46340 the
  overflow can come within the first `capacity` attempts, at source lines 104
  and 133.
- Insertion.Put: inherits the unwrapped probe index described for `Write`.
- Removal.Remove: the probe index `hash1 + i * hash2` at source line 133 is not
  wrapped, so a capacity above 46340 can make Java index with a negative number
  where the model does not.
- Insertion.UpdateTable: `capacity * 2 + 1` is not wrapped to 32 bits.
- Insertion.UpdateTable: `fuel`/`OutOfFuel` bound how deeply resizes nest. This
  is a modelling device; Java has no bound. `UpdateTableNoOutOfFuel` and
  `PutOutOfFuel` prove a necessary condition only. `OutOfFuel` needs a resize
  that either has no fuel left or whose re-insertion reaches the enlarged
  array's threshold. The model does not prove two further facts:
  - that every nested resize returns for some amount of fuel;
  - that more fuel leaves a returned result unchanged.

  For inputs that run out of fuel, the lemmas about returned (`Done`) results
  say nothing. `Scenarios.NestedResize` and
  `Scenarios.NestedResizeOutOfFuel` show one nested resize. It returns with
  two units of fuel and runs out with one.
- Insertion.UpdateTable: the snapshot is re-inserted in slot-index order
  (`Insertion.Reinsertion`), not in `HashMap`'s iteration order. A `HashMap`
  has no order a caller can rely on, and its order depends on the keys' hash
  codes and the map's bucket count. Where colliding keys are re-inserted, the
  layout after a resize can therefore differ from Java's, and so can later
  `put`/`remove` answers that depend on the layout. The lemmas about the
  abstract map, placement, the counter and the capacity hold for any order.
  The `Scenarios` resize involves keys 8 and 2, which land at different slots
  (4 and 1) in the new 11 slots, so its layout does not depend on the order.
- HashTable.Get: with a key stored twice, `get` returns the value of the first
  matching slot in index order, not the one `HashSet` iteration meets first.
  `GetSole`, `GetMatchesSnapshot` and every `get` claim in `Scenarios` concern
  keys stored once, which makes them independent of that order.
- Insertion.Overloaded: `loadFactor * capacity` is an exact real product. Java
  rounds the `float` product: with 0.1f and capacity 10, Java's threshold is
  1.0f, while the exact product is slightly above 1.
- HashTable.New: a load factor of `+Infinity` is not representable. `LoadFactor`
  has only finite values and NaN.
- Insertion.PutAll: the argument map is a sequence of non-null items, so a `null`
  key or value inside `m` cannot be expressed. Java throws
  `NullPointerException` there after putting the earlier entries.
- Item.setValue (source lines 213-217) is not modelled. The table never calls
  it, and `entrySet()` hands out copies (line 186), so it cannot change a
  table.
- `Item.equals`, `Item.hashCode` and `Item.toString` (lines 219-235) are not
  modelled. Items are compared by Dafny equality of key and value, which is
  what `equals` does. A key's own `hashCode`/`equals` is the `hash` parameter
  and Dafny equality.
- HashTable.Size and HashTable.IsEmpty just read the counter (lines 56-64).
  They carry no contract of their own; `ClearKeepsItems` and `DoubledKey`
  state what they answer.
- Exception messages, the `Map` default methods the class inherits, and the
  test file are not modelled.

=== FILE: hash_table.dfy ===
/** The state of `HashTable<K, V>`: an array of nullable `Item` slots, the
    `size` counter and the load factor, together with the read-only
    operations (constructors, `get`, `containsKey`, `containsValue`, the three
    views, `clear`, `isEmpty`) and the facts the writing operations rely on.

    A key's `hashCode` is a foreign call; every operation that hashes takes it
    as a parameter `hash`, and Dafny equality stands for `equals`. */
module HashTable {
  import opened JavaLang
  import opened Probing

  /** A Java reference that may be `null` (`None`). */
  datatype Option<T> = None | Some(value: T)

  /** A call that either returns normally or throws. */
  datatype Result<T> = Ok(value: T) | Err(error: Exception)

  /** A Java `float` load-factor argument; infinities are not modelled. */
  datatype LoadFactor = Finite(value: real) | NaN

  /** `HashTable.Item`: an immutable key with its value. */
  datatype Item<K, V> = Item(key: K, value: V)

  /** One cell of `data`: `null` or an item. */
  type Slot<K, V> = Option<Item<K, V>>

  /** The fields of a table; `capacity` is always `|data|`. */
  datatype Table<K, V> = Table(data: seq<Slot<K, V>>, size: int, loadFactor: real)

  /** What a mutating call does: returns a new state and a result, throws
      (leaving the state as it was), loops forever in `put`'s probe loop, or
      nests resizes deeper than the `fuel` the model was given. */
  datatype Outcome<K, V, R> =
    | Done(table: Table<K, V>, result: R)
    | Raised(error: Exception)
    | Diverges
    | OutOfFuel

  const DEFAULT_CAPACITY: int := 16
  const DEFAULT_LOAD_FACTOR: real := 0.75

  /** What every constructor establishes and no operation breaks. */
  predicate Valid<K(==), V(==)>(t: Table<K, V>)
  {
    |t.data| > 0 && t.loadFactor > 0.0
  }

  // ---------------------------------------------------------------------
  // The contents of a slot array
  // ---------------------------------------------------------------------

  /** The items held by occupied slots. */
  function Entries<K(==), V(==)>(data: seq<Slot<K, V>>): set<Item<K, V>>
  {
    set i | 0 <= i < |data| && data[i].Some? :: data[i].value
  }

  /** The keys held by occupied slots. */
  function KeysOf<K(==), V(==)>(data: seq<Slot<K, V>>): set<K>
  {
    set i | 0 <= i < |data| && data[i].Some? :: data[i].value.key
  }

  /** The values held by occupied slots. */
  function ValuesOf<K(==), V(==)>(data: seq<Slot<K, V>>): set<V>
  {
    set i | 0 <= i < |data| && data[i].Some? :: data[i].value.value
  }

  /** The indices of occupied slots. */
  function Occupied<K(==), V(==)>(data: seq<Slot<K, V>>): set<int>
  {
    set i | 0 <= i < |data| && data[i].Some?
  }

  /** The number of occupied slots, which `size` is meant to track. */
  function Count<K(==), V(==)>(data: seq<Slot<K, V>>): nat
  {
    |Occupied(data)|
  }

  /** No key is stored in two slots. */
  predicate NoDup<K(==), V(==)>(data: seq<Slot<K, V>>)
  {
    forall i, j ::
      (0 <= i < |data| && 0 <= j < |data| && data[i].Some? && data[j].Some? &&
       data[i].value.key == data[j].value.key) ==> i == j
  }

  /** Slot `p` is one of the first `capacity` probe positions of `key`. */
  predicate OnChain<K(==)>(hash: K -> Int32, key: K, p: int, capacity: int)
  {
    capacity > 0 &&
    exists j :: 0 <= j < capacity &&
      Probe(HashFunction1(hash(key), capacity), HashFunction2(hash(key), capacity), j, capacity) == p
  }

  /** Every stored item sits on its own key's probe sequence for the current
      capacity, which is what lets `remove` find it. */
  predicate Placed<K(==), V(==)>(t: Table<K, V>, hash: K -> Int32)
  {
    forall p :: 0 <= p < |t.data| && t.data[p].Some? ==> OnChain(hash, t.data[p].value.key, p, |t.data|)
  }

  /** The invariant a table keeps as long as no key was stored twice and
      `clear` was never called. */
  predicate Inv<K(==), V(==)>(t: Table<K, V>, hash: K -> Int32)
  {
    Valid(t) && Placed(t, hash) && NoDup(t.data) && t.size == Count(t.data)
  }

  lemma CountUpdate<K, V>(data: seq<Slot<K, V>>, p: int, s: Slot<K, V>)
    requires 0 <= p < |data|
    ensures Count(data[p := s]) + (if data[p].Some? then 1 else 0) == Count(data) + (if s.Some? then 1 else 0)
  {
    var d := data[p := s];
    if data[p].Some? {
      assert Occupied(data) == (Occupied(data) - {p}) + {p};
    } else {
      assert p !in Occupied(data);
    }
    if s.Some? {
      assert Occupied(d) == (Occupied(data) - {p}) + {p};
    } else {
      assert Occupied(d) == Occupied(data) - {p};
    }
  }

  // ---------------------------------------------------------------------
  // Sequences of items: iteration over `data`, and `java.util.HashMap`
  // ---------------------------------------------------------------------

  /** The keys of a sequence of items. */
  function KeysOfSeq<K(==), V(==)>(items: seq<Item<K, V>>): set<K>
  {
    set i | 0 <= i < |items| :: items[i].key
  }

  /** No key occurs twice in the sequence: each item's key is absent from
      the items after it. */
  predicate DistinctKeys<K(==), V(==)>(items: seq<Item<K, V>>)
    decreases |items|
  {
    |items| == 0 || (items[0].key !in KeysOfSeq(items[1..]) && DistinctKeys(items[1..]))
  }

  /** The occupied slots' items in index order: what `for (Item item : data)`
      with an `item != null` test visits. */
  function {:induction false} Live<K(==), V(==)>(data: seq<Slot<K, V>>): (r: seq<Item<K, V>>)
    ensures forall i :: 0 <= i < |r| ==> r[i] in Entries(data)
    ensures forall i :: 0 <= i < |data| && data[i].Some? ==> data[i].value in r
    decreases |data|
  {
    if |data| == 0 then []
    else
      var rest := Live(data[1..]);
      assert forall i :: 1 <= i < |data| ==> data[i] == data[1..][i - 1];
      assert Entries(data[1..]) <= Entries(data) by {
        forall e | e in Entries(data[1..]) ensures e in Entries(data) {
          var i :| 0 <= i < |data[1..]| && data[1..][i] == Some(e);
          assert data[i + 1] == Some(e);
        }
      }
      if data[0].Some? then [data[0].value] + rest else rest
  }

  /** The map `java.util.HashMap` holds after `put(item.key, item.value)` for
      each item in order: a later item with the same key overwrites. */
  function {:induction false} ToMap<K(==), V(==)>(items: seq<Item<K, V>>): (m: map<K, V>)
    ensures m.Keys == KeysOfSeq(items)
    ensures forall k :: k in m ==> Item(k, m[k]) in items
    decreases |items|
  {
    if |items| == 0 then map[]
    else
      var rest := ToMap(items[1..]);
      KeysOfSeqCons(items);
      assert forall e :: e in items[1..] ==> e in items;
      if items[0].key in rest then rest else rest[items[0].key := items[0].value]
  }

  lemma KeysOfCons<K, V>(data: seq<Slot<K, V>>)
    requires |data| > 0
    ensures KeysOf(data) == (if data[0].Some? then {data[0].value.key} else {}) + KeysOf(data[1..])
  {
    forall k | k in KeysOf(data) ensures k in (if data[0].Some? then {data[0].value.key} else {}) + KeysOf(data[1..]) {
      var i :| 0 <= i < |data| && data[i].Some? && data[i].value.key == k;
      if i > 0 { assert data[1..][i - 1] == data[i]; }
    }
    forall k | k in KeysOf(data[1..]) ensures k in KeysOf(data) {
      var i :| 0 <= i < |data[1..]| && data[1..][i].Some? && data[1..][i].value.key == k;
      assert data[i + 1] == data[1..][i];
    }
  }

  lemma KeysOfSeqCons<K, V>(items: seq<Item<K, V>>)
    requires |items| > 0
    ensures KeysOfSeq(items) == {items[0].key} + KeysOfSeq(items[1..])
  {
    forall k | k in KeysOfSeq(items) ensures k in {items[0].key} + KeysOfSeq(items[1..]) {
      var i :| 0 <= i < |items| && items[i].key == k;
      if i > 0 { assert items[1..][i - 1] == items[i]; }
    }
    forall k | k in KeysOfSeq(items[1..]) ensures k in KeysOfSeq(items) {
      var i :| 0 <= i < |items[1..]| && items[1..][i].key == k;
      assert items[i + 1].key == k;
    }
  }

  /** `moveItems`: the `HashMap` built from the occupied slots in index order. */
  function Snapshot<K(==), V(==)>(data: seq<Slot<K, V>>): (m: map<K, V>)
    ensures m.Keys == KeysOf(data)
    ensures forall k :: k in m ==> Item(k, m[k]) in Entries(data)
  {
    var live := Live(data);
    assert KeysOfSeq(live) == KeysOf(data) by {
      forall k | k in KeysOfSeq(live) ensures k in KeysOf(data) {
        var i :| 0 <= i < |live| && live[i].key == k;
        assert live[i] in Entries(data);
      }
      forall k | k in KeysOf(data) ensures k in KeysOfSeq(live) {
        var i :| 0 <= i < |data| && data[i].Some? && data[i].value.key == k;
        assert data[i].value in Entries(data);
        var j :| 0 <= j < |live| && live[j] == data[i].value;
      }
    }
    ToMap(live)
  }

  /** The snapshot of a slot array from its first slot and the rest: a later
      slot's item wins. */
  lemma SnapshotCons<K, V>(data: seq<Slot<K, V>>)
    requires |data| > 0
    ensures Snapshot(data) ==
      if data[0].Some? && data[0].value.key !in KeysOf(data[1..])
      then Snapshot(data[1..])[data[0].value.key := data[0].value.value]
      else Snapshot(data[1..])
  {
    var tail := data[1..];
    assert Live(data) == (if data[0].Some? then [data[0].value] else []) + Live(tail);
    if data[0].Some? {
      assert ([data[0].value] + Live(tail))[1..] == Live(tail);
    }
  }

  /** With no duplicate, a stored item is what the snapshot maps its key to. */
  lemma SnapshotValue<K, V>(data: seq<Slot<K, V>>, i: int)
    requires NoDup(data) && 0 <= i < |data| && data[i].Some?
    ensures data[i].value.key in Snapshot(data) && Snapshot(data)[data[i].value.key] == data[i].value.value
  {
    var k := data[i].value.key;
    assert k in KeysOf(data);
    var j :| 0 <= j < |data| && data[j].Some? && data[j].value == Item(k, Snapshot(data)[k]);
  }

  // ---------------------------------------------------------------------
  // Constructors
  // ---------------------------------------------------------------------

  /** `HashTable(capacity, loadFactor)`: an all-`null` array of `capacity`
      slots, or `IllegalArgumentException` for a non-positive capacity or a
      non-positive or NaN load factor. */
  function New<K(==), V(==)>(capacity: int, loadFactor: LoadFactor): (r: Result<Table<K, V>>)
    ensures r.Ok? <==> capacity > 0 && loadFactor.Finite? && loadFactor.value > 0.0
    ensures r.Err? ==> r.error == IllegalArgumentException
    ensures r.Ok? ==> Valid(r.value) && |r.value.data| == capacity && r.value.loadFactor == loadFactor.value
    ensures r.Ok? ==> r.value.size == 0 && Entries(r.value.data) == {} && Count(r.value.data) == 0
    ensures r.Ok? ==> NoDup(r.value.data) && r.value.size == Count(r.value.data)
  {
    if capacity <= 0 then Err(IllegalArgumentException)
    else if loadFactor.NaN? || loadFactor.value <= 0.0 then Err(IllegalArgumentException)
    else
      var data := seq(capacity, _ => None);
      assert Occupied(data) == {};
      Ok(Table(data, 0, loadFactor.value))
  }

  /** `HashTable(capacity)`: the load factor defaults to 0.75. */
  function NewWithCapacity<K(==), V(==)>(capacity: int): (r: Result<Table<K, V>>)
    ensures r.Ok? <==> capacity > 0
    ensures r.Ok? ==> |r.value.data| == capacity && r.value.loadFactor == DEFAULT_LOAD_FACTOR
    ensures r.Ok? ==> r.value.size == 0 && Entries(r.value.data) == {}
  {
    New(capacity, Finite(DEFAULT_LOAD_FACTOR))
  }

  /** `HashTable()`: capacity 16, load factor 0.75; it never throws. */
  function NewDefault<K(==), V(==)>(): (r: Result<Table<K, V>>)
    ensures r.Ok?
    ensures |r.value.data| == DEFAULT_CAPACITY && r.value.loadFactor == DEFAULT_LOAD_FACTOR
    ensures r.value.size == 0 && Entries(r.value.data) == {}
  {
    New(DEFAULT_CAPACITY, Finite(DEFAULT_LOAD_FACTOR))
  }

  // ---------------------------------------------------------------------
  // Reads: every one works on a fresh copy of the entries, not on probing
  // ---------------------------------------------------------------------

  /** `size()`. */
  function Size<K, V>(t: Table<K, V>): int
  {
    t.size
  }

  /** `isEmpty()`: looks at the counter only, not at the slots. */
  predicate IsEmpty<K, V>(t: Table<K, V>)
  {
    t.size == 0
  }

  /** `entrySet()`: a new set holding a copy of every occupied slot's item. */
  function EntrySet<K(==), V(==)>(t: Table<K, V>): (r: set<Item<K, V>>)
    ensures r == Entries(t.data)
  {
    var live := Live(t.data);
    assert Entries(t.data) <= set e | e in live by {
      forall e | e in Entries(t.data) ensures e in live {
        var i :| 0 <= i < |t.data| && t.data[i].Some? && t.data[i].value == e;
      }
    }
    set e | e in live
  }

  /** `keySet()`: the keys of `entrySet()`, collected into a new set. */
  function KeySet<K(==), V(==)>(t: Table<K, V>): (r: set<K>)
    ensures r == KeysOf(t.data)
  {
    var r := set e | e in EntrySet(t) :: e.key;
    assert forall i :: 0 <= i < |t.data| && t.data[i].Some? ==> t.data[i].value in EntrySet(t);
    r
  }

  /** `values()`: the values of `entrySet()`, collected into a new set (so a
      value stored under two keys appears once). */
  function Values<K(==), V(==)>(t: Table<K, V>): (r: set<V>)
    ensures r == ValuesOf(t.data)
  {
    var r := set e | e in EntrySet(t) :: e.value;
    assert forall i :: 0 <= i < |t.data| && t.data[i].Some? ==> t.data[i].value in EntrySet(t);
    r
  }

  /** The value of the first item in `items` whose key is `key`. */
  function {:induction false} FirstValue<K(==), V(==)>(items: seq<Item<K, V>>, key: K): (r: Option<V>)
    ensures r.None? <==> key !in KeysOfSeq(items)
    ensures r.Some? ==> Item(key, r.value) in items
    decreases |items|
  {
    if |items| == 0 then None
    else if items[0].key == key then Some(items[0].value)
    else
      KeysOfSeqCons(items);
      var r := FirstValue(items[1..], key);
      assert r.Some? ==> Item(key, r.value) in items[1..];
      r
  }

  /** `FirstValue` answers from the first item with the key: every item
      before it has another key. */
  lemma {:induction false} FirstValueIsFirst<K, V>(items: seq<Item<K, V>>, key: K)
    decreases |items|
    ensures var r := FirstValue(items, key);
      r.Some? ==>
        exists j :: 0 <= j < |items| && items[j] == Item(key, r.value) &&
                    (forall i :: 0 <= i < j ==> items[i].key != key)
  {
    if |items| > 0 && items[0].key != key {
      var r := FirstValue(items[1..], key);
      FirstValueIsFirst(items[1..], key);
      if r.Some? {
        var j :| 0 <= j < |items[1..]| && items[1..][j] == Item(key, r.value) &&
          (forall i :: 0 <= i < j ==> items[1..][i].key != key);
        assert items[j + 1] == Item(key, r.value);
        assert forall i :: 1 <= i < j + 1 ==> items[i] == items[1..][i - 1];
      }
    }
  }

  /** `get(key)`: scans the entries for an item with an equal key; the probe
      sequence plays no part. */
  function Get<K(==), V(==)>(t: Table<K, V>, key: Option<K>): (r: Result<Option<V>>)
    ensures key.None? <==> r == Err(NullPointerException)
    ensures key.Some? ==> r.Ok? && (r.value.None? <==> key.value !in KeysOf(t.data))
    ensures key.Some? && r.value.Some? ==> Item(key.value, r.value.value) in Entries(t.data)
  {
    if key.None? then Err(NullPointerException)
    else
      var live := Live(t.data);
      var r := FirstValue(live, key.value);
      assert key.value in KeysOf(t.data) ==> key.value in KeysOfSeq(live) by {
        if key.value in KeysOf(t.data) {
          var i :| 0 <= i < |t.data| && t.data[i].Some? && t.data[i].value.key == key.value;
          var j :| 0 <= j < |live| && live[j] == t.data[i].value;
        }
      }
      assert r.Some? ==> Item(key.value, r.value) in Entries(t.data) by {
        if r.Some? {
          var j :| 0 <= j < |live| && live[j] == Item(key.value, r.value);
        }
      }
      Ok(r)
  }

  /** `containsKey(key)`: membership in `keySet()`. */
  function ContainsKey<K(==), V(==)>(t: Table<K, V>, key: Option<K>): (r: Result<bool>)
    ensures key.None? <==> r == Err(NullPointerException)
    ensures key.Some? ==> r == Ok(key.value in KeysOf(t.data))
  {
    if key.None? then Err(NullPointerException) else Ok(key.value in KeySet(t))
  }

  /** `containsValue(value)`: membership in `values()`. */
  function ContainsValue<K(==), V(==)>(t: Table<K, V>, value: Option<V>): (r: Result<bool>)
    ensures value.None? <==> r == Err(NullPointerException)
    ensures value.Some? ==> r == Ok(value.value in ValuesOf(t.data))
  {
    if value.None? then Err(NullPointerException) else Ok(value.value in Values(t))
  }

  /** A key stored in exactly one slot: `get` answers that slot's value. */
  lemma GetSole<K, V>(t: Table<K, V>, key: K, i: int)
    requires 0 <= i < |t.data| && t.data[i].Some? && t.data[i].value.key == key
    requires forall j :: 0 <= j < |t.data| && j != i && t.data[j].Some? ==> t.data[j].value.key != key
    ensures Get(t, Some(key)) == Ok(Some(t.data[i].value.value))
  {
    assert key in KeysOf(t.data);
    var g := Get(t, Some(key));
    var j :| 0 <= j < |t.data| && t.data[j] == Some(Item(key, g.value.value));
  }

  /** On a table without duplicates `get` reads the abstract map: the value
      the `moveItems` snapshot holds for the key, or `null` when it holds
      none. */
  lemma GetMatchesSnapshot<K, V>(t: Table<K, V>, key: K)
    requires NoDup(t.data)
    ensures Get(t, Some(key)) == Ok(if key in Snapshot(t.data) then Some(Snapshot(t.data)[key]) else None)
  {
    var g := Get(t, Some(key));
    if g.value.Some? {
      var i :| 0 <= i < |t.data| && t.data[i].Some? && t.data[i].value == Item(key, g.value.value);
      SnapshotValue(t.data, i);
    }
  }

  // ---------------------------------------------------------------------
  // clear
  // ---------------------------------------------------------------------

  /** `clear()`: the loop assigns `null` to its own loop variable, not to a
      slot, so every item stays in `data`; only the counter drops to zero. */
  function Clear<K(==), V(==)>(t: Table<K, V>): (r: Table<K, V>)
    ensures IsEmpty(r)
    ensures EntrySet(r) == EntrySet(t) && r.data == t.data
    ensures r.loadFactor == t.loadFactor
  {
    t.(size := 0)
  }

}

=== FILE: insertion.dfy ===
/** `put`, `putAll` and the resize they trigger (`updateTable` over
    `moveItems`).

    `updateTable` re-inserts through `putAll`, hence through `put`, without
    first resetting `size`, so a re-insertion can itself trigger a resize.
    The three functions below are therefore mutually recursive; `fuel`
    bounds how deeply resizes may nest and `OutOfFuel` reports a deeper
    nesting, which the Java code would simply carry out. */
module Insertion {
  import opened JavaLang
  import opened Probing
  import opened HashTable

  /** Attempt `j` of `put`'s probe loop goes on: the slot it examines holds
      another key. */
  predicate Blocked<K(==), V>(data: seq<Slot<K, V>>, key: K, h1: nat, h2: nat, j: nat)
    requires |data| > 0
  {
    var p := Probe(h1, h2, j, |data|);
    data[p].Some? && data[p].value.key != key
  }

  /** The first attempt `j` in `[i, capacity)` at which probing stops. */
  function {:induction false} FindStop<K(==), V>(data: seq<Slot<K, V>>, key: K, h1: nat, h2: nat, i: nat): (r: Option<nat>)
    requires 0 < |data| && i <= |data|
    ensures r.Some? ==> i <= r.value < |data| && !Blocked(data, key, h1, h2, r.value)
    ensures r.Some? ==> forall j :: i <= j < r.value ==> Blocked(data, key, h1, h2, j)
    ensures r.None? ==> forall j :: i <= j < |data| ==> Blocked(data, key, h1, h2, j)
    decreases |data| - i
  {
    if i == |data| then None
    else if !Blocked(data, key, h1, h2, i) then Some(i)
    else FindStop(data, key, h1, h2, i + 1)
  }

  /** If each of the first `capacity` attempts is blocked, every attempt is:
      `put`'s `while (true)` loop never ends. */
  lemma NeverStops<K, V>(data: seq<Slot<K, V>>, key: K, h1: nat, h2: nat)
    requires |data| > 0
    requires forall j :: 0 <= j < |data| ==> Blocked(data, key, h1, h2, j)
    ensures forall i: nat :: Blocked(data, key, h1, h2, i)
  {
    forall i: nat ensures Blocked(data, key, h1, h2, i) {
      ProbeRepeats(h1, h2, i, |data|);
      assert Blocked(data, key, h1, h2, i % |data|);
    }
  }

  /** The slot-level effect of `put`'s probing (before the resize check). */
  datatype Written<K, V> =
    | Fresh(data: seq<Slot<K, V>>, step: nat, pos: nat)
    | Replaced(data: seq<Slot<K, V>>, step: nat, pos: nat, previous: V)
    | Cycles

  /** `put` lines that probe: slot `h1` first, then `(h1 + i * h2) % capacity`
      for `i = 1, 2, ...` until an empty slot (store the item, fresh) or the
      key (overwrite it, and answer with the value found at slot `h1`). */
  function Write<K(==), V(==)>(data: seq<Slot<K, V>>, key: K, value: V, h1: nat, h2: nat): (w: Written<K, V>)
    requires h1 < |data|
    ensures !w.Cycles? ==> w.step < |data| && w.pos == Probe(h1, h2, w.step, |data|) && w.pos < |data|
    ensures !w.Cycles? ==> w.data == data[w.pos := Some(Item(key, value))]
    ensures !w.Cycles? ==> forall j :: 0 <= j < w.step ==> Blocked(data, key, h1, h2, j)
    ensures w.Fresh? ==> data[w.pos].None?
    ensures w.Replaced? ==> data[w.pos].Some? && data[w.pos].value.key == key
    ensures w.Replaced? ==> data[h1].Some? && w.previous == data[h1].value.value
    ensures w.Replaced? && data[h1].Some? && data[h1].value.key == key ==> w.pos == h1
    ensures w.Cycles? <==> forall i: nat :: Blocked(data, key, h1, h2, i)
  {
    var stop := FindStop(data, key, h1, h2, 0);
    if stop.None? then
      NeverStops(data, key, h1, h2);
      Cycles
    else
      var j := stop.value;
      var p := Probe(h1, h2, j, |data|);
      var d := data[p := Some(Item(key, value))];
      if data[p].None? then Fresh(d, j, p)
      else
        assert data[h1].Some? by {
          if j > 0 { assert Blocked(data, key, h1, h2, 0); }
        }
        Replaced(d, j, p, data[h1].value.value)
  }

  /** Turns an outcome that did not return into one of another result type. */
  function Abort<K, V, R, S>(o: Outcome<K, V, R>): (r: Outcome<K, V, S>)
    requires !o.Done?
    ensures r.Raised? == o.Raised? && r.Diverges? == o.Diverges? && r.OutOfFuel? == o.OutOfFuel?
    ensures r.Raised? ==> r.error == o.error
  {
    match o
    case Raised(e) => Raised(e)
    case Diverges => Diverges
    case OutOfFuel => OutOfFuel
  }

  /** The threshold test of `put`: `loadFactor * capacity <= size`. */
  predicate Overloaded(loadFactor: real, capacity: nat, size: int)
  {
    Threshold(loadFactor, capacity) <= size as real
  }

  /** `loadFactor * capacity`, written as repeated addition so that proofs
      about the test meet no product of two unknowns; `ThresholdIsProduct`
      shows it is the product. */
  function Threshold(loadFactor: real, capacity: nat): real
  {
    if capacity == 0 then 0.0 else Threshold(loadFactor, capacity - 1) + loadFactor
  }

  lemma {:induction false} ThresholdIsProduct(loadFactor: real, capacity: nat)
    ensures Threshold(loadFactor, capacity) == loadFactor * (capacity as real)
  {
    if capacity > 0 {
      ThresholdIsProduct(loadFactor, capacity - 1);
    }
  }

  /** `Overloaded` is the resize test `loadFactor * capacity <= size`. */
  lemma OverloadedIsProduct(loadFactor: real, capacity: nat, size: int)
    ensures Overloaded(loadFactor, capacity, size) <==> loadFactor * (capacity as real) <= size as real
  {
    ThresholdIsProduct(loadFactor, capacity);
  }

  lemma OverloadedMonotone(loadFactor: real, capacity: nat, size: int, size': int)
    requires size <= size'
    ensures Overloaded(loadFactor, capacity, size) ==> Overloaded(loadFactor, capacity, size')
  {
  }

  /** The items can be inserted one after another as new keys. */
  predicate FreshBatch<K(==), V(==)>(data: seq<Slot<K, V>>, items: seq<Item<K, V>>)
  {
    NoDup(data) && DistinctKeys(items) && KeysOfSeq(items) !! KeysOf(data)
  }

  /** `put(key, value)`: reject a `null` argument, probe and write, then, after
      a fresh insert only, resize when `loadFactor * capacity <= size`. */
  function Put<K(==), V(==)>(t: Table<K, V>, hash: K -> Int32, key: Option<K>, value: Option<V>, fuel: nat)
    : (r: Outcome<K, V, Option<V>>)
    requires Valid(t)
    decreases fuel, 1
    ensures r.Raised? <==> key.None? || value.None?
    ensures r.Raised? ==> r.error == NullPointerException
    ensures r.Done? ==> Valid(r.table) && r.table.loadFactor == t.loadFactor && |r.table.data| >= |t.data|
  {
    if key.None? || value.None? then Raised(NullPointerException)
    else
      var k, v := key.value, value.value;
      var w := Write(t.data, k, v, HashFunction1(hash(k), |t.data|), HashFunction2(hash(k), |t.data|));
      if w.Cycles? then Diverges
      else if w.Replaced? then Done(t.(data := w.data), Some(w.previous))
      else
        var t1 := t.(data := w.data, size := t.size + 1);
        if Overloaded(t.loadFactor, |t.data|, t1.size) then
          var o := UpdateTable(t1, hash, fuel);
          if o.Done? then Done(o.table, None) else Abort(o)
        else Done(t1, None)
  }

  /** `updateTable()`: take the `moveItems` snapshot, allocate `2 * capacity + 1`
      empty slots, `putAll` the snapshot (with `size` still at its old value),
      then set `size` to the snapshot's size. */
  function UpdateTable<K(==), V(==)>(t: Table<K, V>, hash: K -> Int32, fuel: nat): (r: Outcome<K, V, ()>)
    requires Valid(t)
    decreases fuel, 0
    ensures !r.Raised?
    ensures r.Done? ==> Valid(r.table) && r.table.loadFactor == t.loadFactor && |r.table.data| >= 2 * |t.data| + 1
    ensures r.Done? ==> r.table.size == |Snapshot(t.data)|
  {
    if fuel == 0 then OutOfFuel
    else
      var o := Refill(t, hash, fuel - 1);
      if o.Done? then Done(o.table.(size := |Snapshot(t.data)|), ()) else Abort(o)
  }

  /** The `putAll(moveItems())` inside `updateTable`: the snapshot put into
      the emptied array, in re-insertion order. */
  function Refill<K(==), V(==)>(t: Table<K, V>, hash: K -> Int32, fuel: nat): (r: Outcome<K, V, ()>)
    requires Valid(t)
    decreases fuel, 3
    ensures !r.Raised?
    ensures r.Done? ==> Valid(r.table) && r.table.loadFactor == t.loadFactor && |r.table.data| >= 2 * |t.data| + 1
  {
    PutAll(Emptied(t), hash, Some(Reinsertion(t.data)), fuel)
  }

  /** The table `updateTable` fills: `2 * capacity + 1` empty slots, with
      `size` left as it was. */
  function Emptied<K, V>(t: Table<K, V>): (r: Table<K, V>)
    requires Valid(t)
    ensures Valid(r) && |r.data| == 2 * |t.data| + 1 && r.size == t.size && r.loadFactor == t.loadFactor
    ensures Entries(r.data) == {} && KeysOf(r.data) == {} && Count(r.data) == 0
    ensures forall p :: 0 <= p < |r.data| ==> r.data[p].None?
  {
    var data := seq(2 * |t.data| + 1, _ => None);
    assert Occupied(data) == {};
    Table(data, t.size, t.loadFactor)
  }

  /** The order in which `updateTable` re-inserts the snapshot. `HashMap`'s
      iteration order is not modelled: the model takes, in index order, each
      item whose key no later slot holds. */
  function {:induction false} Reinsertion<K(==), V(==)>(data: seq<Slot<K, V>>): (r: seq<Item<K, V>>)
    decreases |data|
  {
    if |data| == 0 then []
    else
      var rest := Reinsertion(data[1..]);
      if data[0].Some? && data[0].value.key !in KeysOf(data[1..]) then [data[0].value] + rest else rest
  }

  /** Empty slots add nothing to the re-insertion order. */
  lemma {:induction false} EmptyReinsertion<K, V>(z: seq<Slot<K, V>>)
    requires forall p :: 0 <= p < |z| ==> z[p].None?
    decreases |z|
    ensures Reinsertion(z) == [] && KeysOf(z) == {}
  {
    if |z| > 0 {
      EmptyReinsertion(z[1..]);
    }
  }

  /** A first slot whose key no later slot holds leads the re-insertion
      order. */
  lemma ReinsertTake<K, V>(x: Slot<K, V>, rest: seq<Slot<K, V>>, r: seq<Item<K, V>>, keys: set<K>)
    requires Reinsertion(rest) == r && KeysOf(rest) == keys && x.Some? && x.value.key !in keys
    ensures Reinsertion([x] + rest) == [x.value] + r && KeysOf([x] + rest) == {x.value.key} + keys
  {
  }

  /** The re-insertion order lists the `moveItems` snapshot: one item per
      key, each with the value the snapshot holds. */
  lemma {:induction false} ReinsertionSnapshot<K, V>(data: seq<Slot<K, V>>)
    decreases |data|
    ensures var r := Reinsertion(data);
      DistinctKeys(r) && KeysOfSeq(r) == KeysOf(data) && ToMap(r) == Snapshot(data) && |r| == |Snapshot(data)|
  {
    if |data| > 0 {
      var tail := data[1..];
      ReinsertionSnapshot(tail);
      SnapshotCons(data);
      KeysOfCons(data);
      var r, rest := Reinsertion(data), Reinsertion(tail);
      if data[0].Some? && data[0].value.key !in KeysOf(tail) {
        assert r == [data[0].value] + rest;
        assert r[1..] == rest;
        KeysOfSeqCons(r);
      } else {
        assert r == rest;
      }
    }
  }

  /** Slot `p` holds the last item stored under its key: no later slot
      holds the same key, so its value is the one `moveItems` keeps. */
  predicate LastOfKey<K(==), V(==)>(data: seq<Slot<K, V>>, p: nat)
    requires p < |data|
  {
    data[p].Some? && data[p].value.key !in KeysOf(data[p + 1..])
  }

  /** The re-insertion order holds exactly the items of the slots that are
      last for their key. */
  lemma {:induction false} ReinsertionLastOfKey<K, V>(data: seq<Slot<K, V>>)
    decreases |data|
    ensures forall it :: it in Reinsertion(data) <==>
      exists p :: 0 <= p < |data| && LastOfKey(data, p) && data[p].value == it
  {
    if |data| > 0 {
      var tail := data[1..];
      ReinsertionLastOfKey(tail);
      var r, rest := Reinsertion(data), Reinsertion(tail);
      assert r == (if LastOfKey(data, 0) then [data[0].value] + rest else rest);
      forall p | 1 <= p < |data|
        ensures data[p] == tail[p - 1] && (LastOfKey(data, p) <==> LastOfKey(tail, p - 1))
      {
        assert data[p + 1..] == tail[p..];
      }
      forall it
        ensures it in r <==> exists p :: 0 <= p < |data| && LastOfKey(data, p) && data[p].value == it
      {
        if it in r && !(LastOfKey(data, 0) && it == data[0].value) {
          var q :| 0 <= q < |tail| && LastOfKey(tail, q) && tail[q].value == it;
          assert LastOfKey(data, q + 1) && data[q + 1].value == it;
        }
        if exists p :: 0 <= p < |data| && LastOfKey(data, p) && data[p].value == it {
          var p :| 0 <= p < |data| && LastOfKey(data, p) && data[p].value == it;
          if p > 0 {
            assert LastOfKey(tail, p - 1) && tail[p - 1].value == it;
          }
        }
      }
    }
  }

  /** The snapshot has one key per re-inserted item. */
  lemma SnapshotSize<K, V>(data: seq<Slot<K, V>>, r: seq<Item<K, V>>)
    requires Reinsertion(data) == r
    ensures |Snapshot(data)| == |r|
  {
    ReinsertionSnapshot(data);
  }

  /** `putAll(m)`: `put` every entry of `m` in its iteration order. */
  function PutAll<K(==), V(==)>(t: Table<K, V>, hash: K -> Int32, m: Option<seq<Item<K, V>>>, fuel: nat)
    : (r: Outcome<K, V, ()>)
    requires Valid(t)
    decreases fuel, 2, if m.Some? then |m.value| else 0
    ensures r.Raised? <==> m.None?
    ensures r.Raised? ==> r.error == NullPointerException
    ensures r.Done? ==> Valid(r.table) && r.table.loadFactor == t.loadFactor && |r.table.data| >= |t.data|
  {
    if m.None? then Raised(NullPointerException)
    else if |m.value| == 0 then Done(t, ())
    else
      var item := m.value[0];
      var o := Put(t, hash, Some(item.key), Some(item.value), fuel);
      if o.Done? then PutAll(o.table, hash, Some(m.value[1..]), fuel) else Abort(o)
  }
}

=== FILE: java_lang.dfy ===
/** Java's 32-bit `int` arithmetic and the exceptions the hash table throws. */
module JavaLang {

  const INT_MIN: int := -0x8000_0000
  const INT_MAX: int := 0x7fff_ffff
  const TWO_32: int := 0x1_0000_0000

  /** The values of a Java `int`. */
  type Int32 = x: int | INT_MIN <= x <= INT_MAX

  /** The exceptions the table raises; their message strings are not modelled. */
  datatype Exception = NullPointerException | IllegalArgumentException

  /** Two's-complement wrap-around of a mathematical integer to a Java `int`,
      as `*` and `+` on `int` do. */
  function Wrap(x: int): (r: Int32)
    ensures (x - r) % TWO_32 == 0
    ensures INT_MIN <= x <= INT_MAX ==> r == x
  {
    (x - INT_MIN) % TWO_32 + INT_MIN
  }

  /** Java's `%` on `int` for a positive divisor: truncates toward zero, so the
      remainder takes the sign of the dividend. */
  function Rem(a: int, b: int): (r: int)
    requires b > 0
    ensures -b < r < b
    ensures a >= 0 ==> r >= 0
    ensures a <= 0 ==> r <= 0
    ensures (a - r) % b == 0
  {
    if a >= 0 then
      ModUnique(a, b, a / b, a % b);
      ModUnique(a - a % b, b, a / b, 0);
      a % b
    else
      ModUnique(-a, b, (-a) / b, (-a) % b);
      ModUnique(a + (-a) % b, b, -((-a) / b), 0);
      -((-a) % b)
  }

  /** `Math.abs` on a value whose magnitude fits in an `int`. */
  function Abs(x: int): (r: nat)
    ensures r == x || r == -x
  {
    if x < 0 then -x else x
  }

  lemma MulNonneg(c: int, m: int)
    requires c >= 0 && m >= 0
    ensures c * m >= 0
  {}

  /** The Euclidean remainder is fixed by any quotient/remainder split. */
  lemma ModUnique(a: int, c: int, q: int, r: int)
    requires c > 0 && 0 <= r < c && a == c * q + r
    ensures a % c == r
  {
    var d, m := a / c, a % c;
    assert a == c * d + m;
    var k := q - d;
    assert c * q == c * d + c * k;
    if k > 0 {
      MulNonneg(c, k - 1);
    } else if k < 0 {
      MulNonneg(c, -k - 1);
    }
  }
}

=== FILE: probing.dfy ===
/** The two hash functions and the double-hashing probe sequence
    `(h1 + i * h2) % capacity`. */
module Probing {
  import opened JavaLang

  /** The multiplier both hash functions apply to the key's hash code. */
  const CONST: int := 17

  /** `hashFunction1`: `Math.abs((hashCode * 17) % capacity)` with the
      product wrapped to 32 bits. */
  function HashFunction1(hashCode: Int32, capacity: int): (r: nat)
    requires capacity > 0
    ensures r < capacity
    ensures r == Abs(Wrap(hashCode * CONST)) % capacity
  {
    Abs(Rem(Wrap(hashCode * CONST), capacity))
  }

  /** `hashFunction2`: `Math.abs(((hashCode * 17) + 1) % capacity)`, both the
      product and the sum wrapped to 32 bits. */
  function HashFunction2(hashCode: Int32, capacity: int): (r: nat)
    requires capacity > 0
    ensures r < capacity
    ensures r == Abs(Wrap(Wrap(hashCode * CONST) + 1)) % capacity
  {
    Abs(Rem(Wrap(Wrap(hashCode * CONST) + 1), capacity))
  }

  /** The slot examined at attempt `i` of a key whose hashes are `h1` and `h2`. */
  function Probe(h1: nat, h2: nat, i: nat, capacity: int): (r: nat)
    requires capacity > 0
    ensures r < capacity
    ensures i == 0 && h1 < capacity ==> r == h1
  {
    (h1 + i * h2) % capacity
  }

  lemma ModAddMultiple(x: nat, c: int, n: nat)
    requires c > 0
    ensures (x + c * n) % c == x % c
  {
    assert x + c * n == c * (x / c + n) + x % c;
    ModUnique(x + c * n, c, x / c + n, x % c);
  }

  /** The probe sequence repeats with period `capacity`. */
  lemma ProbePeriodic(h1: nat, h2: nat, i: nat, capacity: int)
    requires capacity > 0
    ensures Probe(h1, h2, i + capacity, capacity) == Probe(h1, h2, i, capacity)
  {
    assert h1 + (i + capacity) * h2 == (h1 + i * h2) + capacity * h2;
    ModAddMultiple(h1 + i * h2, capacity, h2);
  }

  /** Every attempt lands where one of the first `capacity` attempts landed. */
  lemma ProbeRepeats(h1: nat, h2: nat, i: nat, capacity: int)
    requires capacity > 0
    ensures Probe(h1, h2, i, capacity) == Probe(h1, h2, i % capacity, capacity)
  {
    var q, r := i / capacity, i % capacity;
    assert i == r + capacity * q;
    assert i * h2 == r * h2 + capacity * (q * h2);
    assert h1 + i * h2 == (h1 + r * h2) + capacity * (q * h2);
    ModAddMultiple(h1 + r * h2, capacity, q * h2);
  }
}

=== FILE: put_properties.dfy ===
/** What one `put`, a whole `putAll` and a resize do to the slots, to the
    abstract key-to-value map (`Snapshot`, the map `moveItems` builds) and
    to the `size` counter. */
module PutProperties {
  import opened JavaLang
  import opened Probing
  import opened HashTable
  import opened Insertion
  import opened Removal

  // ---------------------------------------------------------------------
  // Facts about one written slot
  // ---------------------------------------------------------------------

  /** Writing `key`'s item at one of its first `capacity` probe positions keeps
      every item on its chain. */
  lemma WritePlaced<K, V>(t: Table<K, V>, hash: K -> Int32, item: Item<K, V>, step: nat, pos: nat)
    requires |t.data| > 0 && step < |t.data|
    requires pos == Probe(HashFunction1(hash(item.key), |t.data|), HashFunction2(hash(item.key), |t.data|), step, |t.data|)
    ensures Placed(t, hash) ==> Placed(t.(data := t.data[pos := Some(item)]), hash)
  {
    var d := t.data[pos := Some(item)];
    if Placed(t, hash) {
      forall p | 0 <= p < |d| && d[p].Some? ensures OnChain(hash, d[p].value.key, p, |d|) {
        if p == pos {
          assert Probe(HashFunction1(hash(item.key), |d|), HashFunction2(hash(item.key), |d|), step, |d|) == p;
        } else {
          assert d[p] == t.data[p];
        }
      }
    }
  }

  /** The written item is live, and an overwritten slot's key was live. */
  lemma WriteEntries<K, V>(data: seq<Slot<K, V>>, pos: nat, item: Item<K, V>)
    requires pos < |data|
    ensures item in Entries(data[pos := Some(item)])
    ensures data[pos].Some? ==> data[pos].value.key in KeysOf(data)
  {
    assert data[pos := Some(item)][pos] == Some(item);
  }

  /** Storing a new key in an empty slot of a duplicate-free array adds
      exactly that key to the snapshot. */
  lemma FreshInsert<K, V>(data: seq<Slot<K, V>>, pos: nat, item: Item<K, V>)
    requires pos < |data| && data[pos].None?
    ensures NoDup(data) && item.key !in KeysOf(data) ==>
      NoDup(data[pos := Some(item)]) && Snapshot(data[pos := Some(item)]) == Snapshot(data)[item.key := item.value]
  {
    if NoDup(data) && item.key !in KeysOf(data) {
      FreshNoDup(data, pos, item);
      FreshSnapshot(data, pos, item);
    }
  }

  lemma FreshNoDup<K, V>(data: seq<Slot<K, V>>, pos: nat, item: Item<K, V>)
    requires pos < |data| && NoDup(data) && item.key !in KeysOf(data)
    ensures NoDup(data[pos := Some(item)])
  {
    var d := data[pos := Some(item)];
    forall i | 0 <= i < |d| && i != pos && d[i].Some? ensures d[i].value.key != item.key {
      assert d[i] == data[i];
      assert data[i].value.key in KeysOf(data);
    }
    forall i, j | 0 <= i < |d| && 0 <= j < |d| && d[i].Some? && d[j].Some? && d[i].value.key == d[j].value.key
      ensures i == j
    {
      if i != pos && j != pos {
        assert d[i] == data[i] && d[j] == data[j];
      }
    }
  }

  lemma FreshKeys<K, V>(data: seq<Slot<K, V>>, pos: nat, item: Item<K, V>)
    requires pos < |data| && data[pos].None?
    ensures KeysOf(data[pos := Some(item)]) == KeysOf(data) + {item.key}
  {
    var d := data[pos := Some(item)];
    forall k | k in KeysOf(d) ensures k in KeysOf(data) + {item.key} {
      var i :| 0 <= i < |d| && d[i].Some? && d[i].value.key == k;
      if i != pos { assert data[i] == d[i]; }
    }
    forall k | k in KeysOf(data) ensures k in KeysOf(d) {
      var i :| 0 <= i < |data| && data[i].Some? && data[i].value.key == k;
      assert d[i] == data[i];
    }
    assert d[pos] == Some(item);
  }

  lemma FreshSnapshot<K, V>(data: seq<Slot<K, V>>, pos: nat, item: Item<K, V>)
    requires pos < |data| && data[pos].None? && NoDup(data) && item.key !in KeysOf(data)
    requires NoDup(data[pos := Some(item)])
    ensures Snapshot(data[pos := Some(item)]) == Snapshot(data)[item.key := item.value]
  {
    var d := data[pos := Some(item)];
    var s, s' := Snapshot(data), Snapshot(d);
    FreshKeys(data, pos, item);
    forall k | k in s' ensures s'[k] == s[item.key := item.value][k] {
      var i :| 0 <= i < |d| && d[i].Some? && d[i].value.key == k;
      SnapshotValue(d, i);
      if i != pos {
        assert d[i] == data[i];
        SnapshotValue(data, i);
      }
    }
  }

  /** One step of `putAll` over a fresh batch keeps the rest of it fresh and
      accounts for the first item in the snapshot. */
  lemma BatchStep<K, V>(data: seq<Slot<K, V>>, data': seq<Slot<K, V>>, items: seq<Item<K, V>>)
    requires |items| > 0
    requires FreshBatch(data, items) ==>
      NoDup(data') && Snapshot(data') == Snapshot(data)[items[0].key := items[0].value]
    ensures FreshBatch(data, items) ==>
      FreshBatch(data', items[1..]) &&
      Snapshot(data) + ToMap(items) == Snapshot(data') + ToMap(items[1..])
  {
    if FreshBatch(data, items) {
      var k, rest := items[0].key, items[1..];
      assert KeysOf(data') == KeysOf(data) + {k} by {
        assert Snapshot(data').Keys == Snapshot(data).Keys + {k};
      }
      assert KeysOfSeq(rest) <= KeysOfSeq(items) by { KeysOfSeqCons(items); }
      ToMapCons(items);
      UpdateThenUnion(Snapshot(data), ToMap(rest), k, items[0].value);
    }
  }


  /** Overwriting the one slot that holds a key, in an array without
      duplicates, changes just that key's value in the snapshot. */
  lemma ReplaceSlot<K, V>(data: seq<Slot<K, V>>, p: nat, item: Item<K, V>)
    requires NoDup(data) && p < |data| && data[p].Some? && data[p].value.key == item.key
    ensures NoDup(data[p := Some(item)])
    ensures Snapshot(data[p := Some(item)]) == Snapshot(data)[item.key := item.value]
  {
    var c := data[p := None];
    ClearSlot(data, p);
    RemovedKey(Snapshot(data), Snapshot(c), item.key, item.value);
    FreshInsert(c, p, item);
    RestoreSlot(data, c, p, item);
  }

  /** Clearing a slot and then filling it is filling it directly. */
  lemma RestoreSlot<K, V>(data: seq<Slot<K, V>>, c: seq<Slot<K, V>>, p: nat, item: Item<K, V>)
    requires p < |data| && c == data[p := None]
    ensures c[p := Some(item)] == data[p := Some(item)]
  {
  }

  /** Removing a key and then storing it again is the same as updating it. */
  lemma RemovedKey<K, V>(m: map<K, V>, m': map<K, V>, k: K, v: V)
    requires m' == m - {k}
    ensures k !in m' && m'[k := v] == m[k := v]
  {
  }

  lemma ToMapCons<K, V>(items: seq<Item<K, V>>)
    requires |items| > 0 && items[0].key !in KeysOfSeq(items[1..])
    ensures ToMap(items) == ToMap(items[1..])[items[0].key := items[0].value]
  {
  }

  lemma UnionEmpty<K, V>(m: map<K, V>)
    ensures map[] + m == m
  {
  }

  lemma UpdateThenUnion<K, V>(s: map<K, V>, m: map<K, V>, k: K, v: V)
    requires k !in m
    ensures s[k := v] + m == s + m[k := v]
  {
  }

  // ---------------------------------------------------------------------
  // One `put`
  // ---------------------------------------------------------------------

  /** The branches of `put` for a non-null pair, in terms of the slot write. */
  lemma PutShape<K, V>(t: Table<K, V>, hash: K -> Int32, key: K, value: V, fuel: nat)
    requires Valid(t)
    ensures var w := Write(t.data, key, value, HashFunction1(hash(key), |t.data|), HashFunction2(hash(key), |t.data|));
      var r := Put(t, hash, Some(key), Some(value), fuel);
      (w.Cycles? ==> r == Diverges) &&
      (w.Replaced? ==> r == Done(t.(data := w.data), Some(w.previous))) &&
      (w.Fresh? ==> PutFresh(t, hash, w, fuel, r))
  {
  }

  /** What `put` does after a fresh write `w`: count it, and resize when the
      threshold is reached. */
  predicate PutFresh<K(==), V(==)>(t: Table<K, V>, hash: K -> Int32, w: Written<K, V>, fuel: nat, r: Outcome<K, V, Option<V>>)
    requires Valid(t) && w.Fresh? && |w.data| == |t.data|
  {
    var t1 := t.(data := w.data, size := t.size + 1);
    if Overloaded(t.loadFactor, |t.data|, t1.size) then
      (r.Done? <==> UpdateTable(t1, hash, fuel).Done?) && (r.Done? ==> r == Done(UpdateTable(t1, hash, fuel).table, None))
    else r == Done(t1, None)
  }

  /** `putAll` of a non-empty batch is `put` of its head, then `putAll` of the
      rest. */
  lemma PutAllShape<K, V>(t: Table<K, V>, hash: K -> Int32, items: seq<Item<K, V>>, fuel: nat)
    requires Valid(t) && |items| > 0
    ensures var o := Put(t, hash, Some(items[0].key), Some(items[0].value), fuel);
      var r := PutAll(t, hash, Some(items), fuel);
      (r.Done? ==> o.Done?) && (o.Done? ==> r == PutAll(o.table, hash, Some(items[1..]), fuel))
  {
  }

  /** When probing meets the key before an empty slot, `put` overwrites that
      one slot, keeps `size` and the capacity, skips the resize check and
      answers with the value stored at slot `h1`, which at an attempt `i >= 1`
      belongs to another key. */
  lemma PutUpdate<K, V>(t: Table<K, V>, hash: K -> Int32, key: K, value: V, fuel: nat)
    requires Valid(t)
    ensures var r := Put(t, hash, Some(key), Some(value), fuel);
      var h1 := HashFunction1(hash(key), |t.data|);
      r.Done? && r.result.Some? ==>
        r.table.size == t.size && |r.table.data| == |t.data| &&
        t.data[h1].Some? && r.result.value == t.data[h1].value.value &&
        exists p :: 0 <= p < |t.data| && t.data[p].Some? && t.data[p].value.key == key &&
          r.table.data == t.data[p := Some(Item(key, value))]
  {
    var w := Write(t.data, key, value, HashFunction1(hash(key), |t.data|), HashFunction2(hash(key), |t.data|));
    if w.Replaced? {
      assert t.data[w.pos].Some? && t.data[w.pos].value.key == key;
    }
  }

  /** At attempt 0 the answer is right: when slot `h1` holds the key, `put`
      overwrites exactly that slot and returns its previous value. */
  lemma PutAtHome<K, V>(t: Table<K, V>, hash: K -> Int32, key: K, value: V, fuel: nat)
    requires Valid(t)
    requires var h1 := HashFunction1(hash(key), |t.data|);
      t.data[h1].Some? && t.data[h1].value.key == key
    ensures var h1 := HashFunction1(hash(key), |t.data|);
      Put(t, hash, Some(key), Some(value), fuel) ==
        Done(t.(data := t.data[h1 := Some(Item(key, value))]), Some(t.data[h1].value.value))
  {
    var h1, h2 := HashFunction1(hash(key), |t.data|), HashFunction2(hash(key), |t.data|);
    var w := Write(t.data, key, value, h1, h2);
    assert !Blocked(t.data, key, h1, h2, 0);
  }

  /** A fresh insert below the threshold stores the item in the first empty
      slot of the key's probe sequence, changes no other slot, raises `size`
      by one and returns `null`. */
  lemma PutInsert<K, V>(t: Table<K, V>, hash: K -> Int32, key: K, value: V, fuel: nat)
    requires Valid(t)
    ensures var r := Put(t, hash, Some(key), Some(value), fuel);
      var h1, h2 := HashFunction1(hash(key), |t.data|), HashFunction2(hash(key), |t.data|);
      r.Done? && r.result.None? && !Overloaded(t.loadFactor, |t.data|, t.size + 1) ==>
        r.table.size == t.size + 1 && |r.table.data| == |t.data| &&
        exists j :: 0 <= j < |t.data| && t.data[Probe(h1, h2, j, |t.data|)].None? &&
          r.table.data == t.data[Probe(h1, h2, j, |t.data|) := Some(Item(key, value))] &&
          forall i :: 0 <= i < j ==> Blocked(t.data, key, h1, h2, i)
  {
    var h1, h2 := HashFunction1(hash(key), |t.data|), HashFunction2(hash(key), |t.data|);
    var w := Write(t.data, key, value, h1, h2);
    if w.Fresh? {
      assert t.data[Probe(h1, h2, w.step, |t.data|)].None?;
    }
  }

  /** Conversely, when the first attempt that is not blocked finds an empty
      slot and the threshold stays out of reach, `put` stores the item there
      and returns `null`. */
  lemma PutFreshAt<K, V>(t: Table<K, V>, hash: K -> Int32, key: K, value: V, fuel: nat, j: nat)
    requires Valid(t)
    requires var h1, h2 := HashFunction1(hash(key), |t.data|), HashFunction2(hash(key), |t.data|);
      j < |t.data| && t.data[Probe(h1, h2, j, |t.data|)].None? &&
      forall i :: 0 <= i < j ==> Blocked(t.data, key, h1, h2, i)
    requires !Overloaded(t.loadFactor, |t.data|, t.size + 1)
    ensures var h1, h2 := HashFunction1(hash(key), |t.data|), HashFunction2(hash(key), |t.data|);
      Put(t, hash, Some(key), Some(value), fuel) ==
        Done(t.(data := t.data[Probe(h1, h2, j, |t.data|) := Some(Item(key, value))], size := t.size + 1), None)
  {
    var h1, h2 := HashFunction1(hash(key), |t.data|), HashFunction2(hash(key), |t.data|);
    assert !Blocked(t.data, key, h1, h2, j);
  }

  /** Conversely, when the first attempt that is not blocked meets the key,
      `put` overwrites that slot and answers with the value at slot `h1`. */
  lemma PutReplaceAt<K, V>(t: Table<K, V>, hash: K -> Int32, key: K, value: V, fuel: nat, j: nat)
    requires Valid(t)
    requires var h1, h2 := HashFunction1(hash(key), |t.data|), HashFunction2(hash(key), |t.data|);
      var p := Probe(h1, h2, j, |t.data|);
      j < |t.data| && t.data[p].Some? && t.data[p].value.key == key &&
      forall i :: 0 <= i < j ==> Blocked(t.data, key, h1, h2, i)
    ensures var h1, h2 := HashFunction1(hash(key), |t.data|), HashFunction2(hash(key), |t.data|);
      t.data[h1].Some? &&
      Put(t, hash, Some(key), Some(value), fuel) ==
        Done(t.(data := t.data[Probe(h1, h2, j, |t.data|) := Some(Item(key, value))]), Some(t.data[h1].value.value))
  {
    var h1, h2 := HashFunction1(hash(key), |t.data|), HashFunction2(hash(key), |t.data|);
    assert !Blocked(t.data, key, h1, h2, j);
    if j > 0 {
      assert Blocked(t.data, key, h1, h2, 0);
    }
  }

  /** The capacity grows exactly when a fresh insert reaches the threshold
      `loadFactor * capacity <= size`. */
  lemma PutResizes<K, V>(t: Table<K, V>, hash: K -> Int32, key: K, value: V, fuel: nat)
    requires Valid(t)
    ensures var r := Put(t, hash, Some(key), Some(value), fuel);
      r.Done? ==>
        (|r.table.data| > |t.data| <==> r.result.None? && Overloaded(t.loadFactor, |t.data|, t.size + 1))
  {
    PutUpdate(t, hash, key, value, fuel);
    PutInsert(t, hash, key, value, fuel);
  }

  /** How one returning `put` moves `size` and the capacity: without a
      resize `size` grows by one exactly on a fresh insert, and a resize
      happens exactly when that insert reaches the threshold. */
  lemma PutGrowth<K, V>(t: Table<K, V>, hash: K -> Int32, key: K, value: V, fuel: nat)
    requires Valid(t)
    ensures var r := Put(t, hash, Some(key), Some(value), fuel);
      r.Done? ==>
        (|r.table.data| == |t.data| <==> !(r.result.None? && Overloaded(t.loadFactor, |t.data|, t.size + 1))) &&
        (|r.table.data| == |t.data| ==> r.table.size == t.size + (if r.result.None? then 1 else 0))
  {
    PutResizes(t, hash, key, value, fuel);
    PutInsert(t, hash, key, value, fuel);
    PutUpdate(t, hash, key, value, fuel);
  }

  /** `put` runs forever when every attempt meets another key; below the
      threshold that is also the only way it fails to return. */
  lemma PutLoopsForever<K, V>(t: Table<K, V>, hash: K -> Int32, key: K, value: V, fuel: nat)
    requires Valid(t)
    ensures var h1, h2 := HashFunction1(hash(key), |t.data|), HashFunction2(hash(key), |t.data|);
      (forall i: nat :: Blocked(t.data, key, h1, h2, i)) ==> Put(t, hash, Some(key), Some(value), fuel).Diverges?
    ensures var h1, h2 := HashFunction1(hash(key), |t.data|), HashFunction2(hash(key), |t.data|);
      !Overloaded(t.loadFactor, |t.data|, t.size + 1) ==>
        (Put(t, hash, Some(key), Some(value), fuel).Diverges? <==> forall i: nat :: Blocked(t.data, key, h1, h2, i))
  {
  }

  /** After `put(key, value)` returns, the pair is stored, unless the key was
      already present and the resize dropped the new copy in favour of the
      old one (see `LostUpdate`). */
  lemma PutStores<K, V>(t: Table<K, V>, hash: K -> Int32, key: K, value: V, fuel: nat)
    requires Valid(t)
    ensures var r := Put(t, hash, Some(key), Some(value), fuel);
      r.Done? && (|r.table.data| == |t.data| || (NoDup(t.data) && key !in KeysOf(t.data))) ==>
        Item(key, value) in EntrySet(r.table)
  {
    var w := Write(t.data, key, value, HashFunction1(hash(key), |t.data|), HashFunction2(hash(key), |t.data|));
    if !w.Cycles? {
      WriteEntries(t.data, w.pos, Item(key, value));
      if NoDup(t.data) && key !in KeysOf(t.data) {
        PutNewKey(t, hash, key, value, fuel);
        var r := Put(t, hash, Some(key), Some(value), fuel);
        if r.Done? {
          assert key in Snapshot(r.table.data);
        }
      }
    }
  }

  /** `put` keeps the invariant `size == number of occupied slots`, even when
      it stores a key twice: the resize re-counts. */
  lemma PutKeepsCount<K, V>(t: Table<K, V>, hash: K -> Int32, key: K, value: V, fuel: nat)
    requires Valid(t) && t.size == Count(t.data)
    ensures var r := Put(t, hash, Some(key), Some(value), fuel);
      r.Done? ==> r.table.size == Count(r.table.data)
  {
    var r := Put(t, hash, Some(key), Some(value), fuel);
    var w := Write(t.data, key, value, HashFunction1(hash(key), |t.data|), HashFunction2(hash(key), |t.data|));
    if !w.Cycles? {
      CountUpdate(t.data, w.pos, Some(Item(key, value)));
      var t1 := t.(data := w.data, size := t.size + 1);
      PutShape(t, hash, key, value, fuel);
      if w.Fresh? && Overloaded(t.loadFactor, |t.data|, t1.size) {
        UpdateTableRebuilds(t1, hash, fuel);
      }
    }
  }

  /** `put` keeps every item on its own probe sequence. */
  /** `putAll` keeps `size` equal to the number of occupied slots, as each
      of its `put`s does. */
  lemma {:induction false} PutAllKeepsCount<K, V>(t: Table<K, V>, hash: K -> Int32, items: seq<Item<K, V>>, fuel: nat)
    requires Valid(t) && t.size == Count(t.data)
    decreases |items|
    ensures var r := PutAll(t, hash, Some(items), fuel);
      r.Done? ==> r.table.size == Count(r.table.data)
  {
    if |items| > 0 {
      PutKeepsCount(t, hash, items[0].key, items[0].value, fuel);
      var o := Put(t, hash, Some(items[0].key), Some(items[0].value), fuel);
      PutAllShape(t, hash, items, fuel);
      if o.Done? {
        PutAllKeepsCount(o.table, hash, items[1..], fuel);
      }
    }
  }

  lemma {:induction false} PutKeepsPlaced<K, V>(t: Table<K, V>, hash: K -> Int32, key: K, value: V, fuel: nat)
    requires Valid(t) && Placed(t, hash)
    decreases fuel, 1
    ensures var r := Put(t, hash, Some(key), Some(value), fuel);
      r.Done? ==> Placed(r.table, hash)
  {
    var r := Put(t, hash, Some(key), Some(value), fuel);
    var w := Write(t.data, key, value, HashFunction1(hash(key), |t.data|), HashFunction2(hash(key), |t.data|));
    if !w.Cycles? {
      var t1 := t.(data := w.data, size := t.size + 1);
      assert Placed(t1, hash) by {
        WritePlaced(t, hash, Item(key, value), w.step, w.pos);
      }
      PutShape(t, hash, key, value, fuel);
      if w.Fresh? && Overloaded(t.loadFactor, |t.data|, t1.size) {
        UpdateTablePlaced(t1, hash, fuel);
      }
    }
  }

  /** The table `updateTable` builds has every item on its probe sequence for
      the new capacity. */
  lemma {:induction false} UpdateTablePlaced<K, V>(t: Table<K, V>, hash: K -> Int32, fuel: nat)
    requires Valid(t)
    decreases fuel, 0
    ensures var r := UpdateTable(t, hash, fuel);
      r.Done? ==> Placed(r.table, hash)
  {
    if fuel > 0 {
      RefillPlaced(t, hash, fuel - 1);
      UpdateTableShape(t, hash, fuel);
    }
  }

  lemma RefillPlaced<K, V>(t: Table<K, V>, hash: K -> Int32, fuel: nat)
    requires Valid(t)
    decreases fuel, 3
    ensures var o := Refill(t, hash, fuel);
      o.Done? ==> Placed(o.table, hash)
  {
    RefillShape(t, hash, fuel);
    PutAllKeepsPlaced(Emptied(t), hash, Reinsertion(t.data), fuel);
  }

  lemma {:induction false} PutAllKeepsPlaced<K, V>(t: Table<K, V>, hash: K -> Int32, items: seq<Item<K, V>>, fuel: nat)
    requires Valid(t) && Placed(t, hash)
    decreases fuel, 2, |items|
    ensures var r := PutAll(t, hash, Some(items), fuel);
      r.Done? ==> Placed(r.table, hash)
  {
    if |items| > 0 {
      PutKeepsPlaced(t, hash, items[0].key, items[0].value, fuel);
      var o := Put(t, hash, Some(items[0].key), Some(items[0].value), fuel);
      PutAllShape(t, hash, items, fuel);
      if o.Done? {
        PutAllKeepsPlaced(o.table, hash, items[1..], fuel);
      }
    }
  }

  // ---------------------------------------------------------------------
  // New keys and the abstract map
  // ---------------------------------------------------------------------

  /** On a table without duplicates, `put` of a new key returns `null`, stores
      no duplicate and adds exactly `key -> value` to the abstract map. */
  lemma {:induction false} PutNewKey<K, V>(t: Table<K, V>, hash: K -> Int32, key: K, value: V, fuel: nat)
    requires Valid(t) && NoDup(t.data) && key !in KeysOf(t.data)
    decreases fuel, 1
    ensures var r := Put(t, hash, Some(key), Some(value), fuel);
      r.Done? ==>
        r.result.None? && NoDup(r.table.data) && Snapshot(r.table.data) == Snapshot(t.data)[key := value] &&
        (Count(t.data) == |Snapshot(t.data)| ==> Count(r.table.data) == |Snapshot(r.table.data)|)
  {
    var r := Put(t, hash, Some(key), Some(value), fuel);
    var w := Write(t.data, key, value, HashFunction1(hash(key), |t.data|), HashFunction2(hash(key), |t.data|));
    if !w.Cycles? {
      var t1 := t.(data := w.data, size := t.size + 1);
      assert w.Fresh? by {
        WriteEntries(t.data, w.pos, Item(key, value));
      }
      assert NoDup(t1.data) && Snapshot(t1.data) == Snapshot(t.data)[key := value] &&
        (Count(t.data) == |Snapshot(t.data)| ==> Count(t1.data) == |Snapshot(t1.data)|)
      by {
        FreshInsert(t.data, w.pos, Item(key, value));
        CountUpdate(t.data, w.pos, Some(Item(key, value)));
      }
      PutShape(t, hash, key, value, fuel);
      if Overloaded(t.loadFactor, |t.data|, t1.size) {
        UpdateTableRebuilds(t1, hash, fuel);
      }
    }
  }

  /** `updateTable` keeps the abstract map (the `moveItems` snapshot), stores
      no key twice and leaves `size` equal to the number of occupied slots. */
  lemma {:induction false} UpdateTableRebuilds<K, V>(t: Table<K, V>, hash: K -> Int32, fuel: nat)
    requires Valid(t)
    decreases fuel, 0
    ensures var r := UpdateTable(t, hash, fuel);
      r.Done? ==>
        NoDup(r.table.data) && Snapshot(r.table.data) == Snapshot(t.data) && r.table.size == Count(r.table.data)
  {
    if fuel > 0 {
      RefillRebuilds(t, hash, fuel - 1);
      UpdateTableShape(t, hash, fuel);
      RebuiltCopy(UpdateTable(t, hash, fuel), Refill(t, hash, fuel - 1), Snapshot(t.data));
    }
  }

  lemma RefillRebuilds<K, V>(t: Table<K, V>, hash: K -> Int32, fuel: nat)
    requires Valid(t)
    decreases fuel, 3
    ensures var o := Refill(t, hash, fuel);
      o.Done? ==>
        NoDup(o.table.data) && Snapshot(o.table.data) == Snapshot(t.data) && Count(o.table.data) == |Snapshot(t.data)|
  {
    var e, items := Emptied(t), Reinsertion(t.data);
    RefillShape(t, hash, fuel);
    ReinsertionFresh(t);
    ReinsertionSnapshot(t.data);
    assert Snapshot(e.data) == map[];
    PutAllNewKeys(e, hash, items, fuel);
    UnionEmpty(ToMap(items));
  }

  /** `putAll` of distinct new keys adds exactly them to the abstract map. */
  lemma {:induction false} PutAllNewKeys<K, V>(t: Table<K, V>, hash: K -> Int32, items: seq<Item<K, V>>, fuel: nat)
    requires Valid(t) && FreshBatch(t.data, items)
    decreases fuel, 2, |items|
    ensures var r := PutAll(t, hash, Some(items), fuel);
      r.Done? ==>
        NoDup(r.table.data) && Snapshot(r.table.data) == Snapshot(t.data) + ToMap(items) &&
        (Count(t.data) == |Snapshot(t.data)| ==> Count(r.table.data) == |Snapshot(r.table.data)|)
  {
    if |items| == 0 {
      assert ToMap(items) == map[];
    } else {
      var o := Put(t, hash, Some(items[0].key), Some(items[0].value), fuel);
      BatchHead(t, hash, items, fuel);
      PutAllShape(t, hash, items, fuel);
      if o.Done? {
        PutAllNewKeys(o.table, hash, items[1..], fuel);
        BatchChain(t.data, o, PutAll(t, hash, Some(items), fuel), PutAll(o.table, hash, Some(items[1..]), fuel), items);
      }
    }
  }

  /** The first `put` of a fresh batch leaves the rest of it fresh and moves
      the first item from the batch into the snapshot. */
  lemma BatchHead<K, V>(t: Table<K, V>, hash: K -> Int32, items: seq<Item<K, V>>, fuel: nat)
    requires Valid(t) && FreshBatch(t.data, items) && |items| > 0
    decreases fuel, 2, 0
    ensures var o := Put(t, hash, Some(items[0].key), Some(items[0].value), fuel);
      o.Done? ==>
        FreshBatch(o.table.data, items[1..]) &&
        Snapshot(t.data) + ToMap(items) == Snapshot(o.table.data) + ToMap(items[1..]) &&
        (Count(t.data) == |Snapshot(t.data)| ==> Count(o.table.data) == |Snapshot(o.table.data)|)
  {
    KeysOfSeqCons(items);
    PutNewKey(t, hash, items[0].key, items[0].value, fuel);
    HeadStep(t.data, Put(t, hash, Some(items[0].key), Some(items[0].value), fuel), items);
  }

  /** `BatchStep` for the outcome of the first `put`. */
  lemma HeadStep<K, V>(data: seq<Slot<K, V>>, o: Outcome<K, V, Option<V>>, items: seq<Item<K, V>>)
    requires FreshBatch(data, items) && |items| > 0
    requires o.Done? ==>
      NoDup(o.table.data) && Snapshot(o.table.data) == Snapshot(data)[items[0].key := items[0].value] &&
      (Count(data) == |Snapshot(data)| ==> Count(o.table.data) == |Snapshot(o.table.data)|)
    ensures o.Done? ==>
      FreshBatch(o.table.data, items[1..]) &&
      Snapshot(data) + ToMap(items) == Snapshot(o.table.data) + ToMap(items[1..]) &&
      (Count(data) == |Snapshot(data)| ==> Count(o.table.data) == |Snapshot(o.table.data)|)
  {
    if o.Done? {
      BatchStep(data, o.table.data, items);
    }
  }

  /** Chains the first `put` of a batch with the `putAll` of the rest. The
      outcomes come in as values, with `r == r'` standing for the unfolding
      of `putAll`, so that the caller's proof stays within the solver's
      budget. */
  lemma BatchChain<K, V>(data: seq<Slot<K, V>>, o: Outcome<K, V, Option<V>>, r: Outcome<K, V, ()>, r': Outcome<K, V, ()>,
                         items: seq<Item<K, V>>)
    requires |items| > 0 && o.Done? && r == r'
    requires Snapshot(data) + ToMap(items) == Snapshot(o.table.data) + ToMap(items[1..])
    requires Count(data) == |Snapshot(data)| ==> Count(o.table.data) == |Snapshot(o.table.data)|
    requires r'.Done? ==>
      NoDup(r'.table.data) && Snapshot(r'.table.data) == Snapshot(o.table.data) + ToMap(items[1..]) &&
      (Count(o.table.data) == |Snapshot(o.table.data)| ==> Count(r'.table.data) == |Snapshot(r'.table.data)|)
    ensures r.Done? ==>
      NoDup(r.table.data) && Snapshot(r.table.data) == Snapshot(data) + ToMap(items) &&
      (Count(data) == |Snapshot(data)| ==> Count(r.table.data) == |Snapshot(r.table.data)|)
  {
  }

  /** The pair a `put` of a new key stores is what `get` then returns. */
  lemma PutThenGet<K, V>(t: Table<K, V>, hash: K -> Int32, key: K, value: V, fuel: nat)
    requires Valid(t) && NoDup(t.data) && key !in KeysOf(t.data)
    ensures var r := Put(t, hash, Some(key), Some(value), fuel);
      r.Done? ==> Get(r.table, Some(key)) == Ok(Some(value)) && ContainsKey(r.table, Some(key)) == Ok(true)
  {
    var r := Put(t, hash, Some(key), Some(value), fuel);
    PutNewKey(t, hash, key, value, fuel);
    if r.Done? {
      GetMatchesSnapshot(r.table, key);
    }
  }

  /** `put` of a new key keeps the whole invariant: placement, no duplicate,
      `size` equal to the occupied-slot count. */
  lemma PutNewKeyKeepsInv<K, V>(t: Table<K, V>, hash: K -> Int32, key: K, value: V, fuel: nat)
    requires Inv(t, hash) && key !in KeysOf(t.data)
    ensures var r := Put(t, hash, Some(key), Some(value), fuel);
      r.Done? ==> Inv(r.table, hash) && |Snapshot(r.table.data)| == |Snapshot(t.data)| + 1
  {
    PutNewKey(t, hash, key, value, fuel);
    PutKeepsCount(t, hash, key, value, fuel);
    PutKeepsPlaced(t, hash, key, value, fuel);
  }

  /** The overwrite path under the invariant: when the first attempt that is
      not blocked meets the key, `put` keeps the invariant, changes the key's
      value in the abstract map and answers with the value at slot `h1`. */
  lemma PutReplaceKeepsInv<K, V>(t: Table<K, V>, hash: K -> Int32, key: K, value: V, fuel: nat, j: nat)
    requires Inv(t, hash)
    requires var h1, h2 := HashFunction1(hash(key), |t.data|), HashFunction2(hash(key), |t.data|);
      var p := Probe(h1, h2, j, |t.data|);
      j < |t.data| && t.data[p].Some? && t.data[p].value.key == key &&
      forall i :: 0 <= i < j ==> Blocked(t.data, key, h1, h2, i)
    ensures var r := Put(t, hash, Some(key), Some(value), fuel);
      var h1 := HashFunction1(hash(key), |t.data|);
      r.Done? && t.data[h1].Some? && r.result == Some(t.data[h1].value.value) &&
      Inv(r.table, hash) && Snapshot(r.table.data) == Snapshot(t.data)[key := value]
  {
    var h1, h2 := HashFunction1(hash(key), |t.data|), HashFunction2(hash(key), |t.data|);
    var p := Probe(h1, h2, j, |t.data|);
    PutReplaceAt(t, hash, key, value, fuel, j);
    WritePlaced(t, hash, Item(key, value), j, p);
    CountUpdate(t.data, p, Some(Item(key, value)));
    ReplaceSlot(t.data, p, Item(key, value));
  }

  // ---------------------------------------------------------------------
  // Capacity after a resize, with and without nesting
  // ---------------------------------------------------------------------

  /** While `size` stays below the threshold, `putAll` never resizes. */
  lemma {:induction false} PutAllWithinThreshold<K, V>(t: Table<K, V>, hash: K -> Int32, items: seq<Item<K, V>>, fuel: nat)
    requires Valid(t) && !Overloaded(t.loadFactor, |t.data|, t.size + |items|)
    decreases |items|
    ensures var r := PutAll(t, hash, Some(items), fuel);
      r.Done? ==> |r.table.data| == |t.data|
  {
    var r := PutAll(t, hash, Some(items), fuel);
    if |items| > 0 {
      var k, v := items[0].key, items[0].value;
      var o := Put(t, hash, Some(k), Some(v), fuel);
      PutAllShape(t, hash, items, fuel);
      if o.Done? {
        OverloadedMonotone(t.loadFactor, |t.data|, t.size + 1, t.size + |items|);
        PutGrowth(t, hash, k, v, fuel);
        OverloadedMonotone(t.loadFactor, |t.data|, o.table.size + |items[1..]|, t.size + |items|);
        PutAllWithinThreshold(o.table, hash, items[1..], fuel);
      }
    }
  }

  /** Re-inserting distinct new keys that carry `size` past the threshold
      does resize. */
  lemma {:induction false} PutAllCrossesThreshold<K, V>(t: Table<K, V>, hash: K -> Int32, items: seq<Item<K, V>>, fuel: nat)
    requires Valid(t) && FreshBatch(t.data, items) && |items| > 0
    requires Overloaded(t.loadFactor, |t.data|, t.size + |items|)
    decreases |items|
    ensures var r := PutAll(t, hash, Some(items), fuel);
      r.Done? ==> |r.table.data| > |t.data|
  {
    var r := PutAll(t, hash, Some(items), fuel);
    var o := Put(t, hash, Some(items[0].key), Some(items[0].value), fuel);
    PutAllShape(t, hash, items, fuel);
    CrossingStep(t, hash, items, fuel);
    if o.Done? && |o.table.data| == |t.data| {
      PutAllCrossesThreshold(o.table, hash, items[1..], fuel);
    }
  }

  /** A first fresh insert that does not resize leaves the rest of the batch
      fresh and still past the threshold. */
  lemma CrossingStep<K, V>(t: Table<K, V>, hash: K -> Int32, items: seq<Item<K, V>>, fuel: nat)
    requires Valid(t) && FreshBatch(t.data, items) && |items| > 0
    requires Overloaded(t.loadFactor, |t.data|, t.size + |items|)
    ensures var o := Put(t, hash, Some(items[0].key), Some(items[0].value), fuel);
      o.Done? && |o.table.data| == |t.data| ==>
        FreshBatch(o.table.data, items[1..]) && |items| > 1 &&
        Overloaded(o.table.loadFactor, |o.table.data|, o.table.size + |items[1..]|)
  {
    var k, v := items[0].key, items[0].value;
    var o := Put(t, hash, Some(k), Some(v), fuel);
    if o.Done? && |o.table.data| == |t.data| {
      assert k in KeysOfSeq(items);
      PutNewKey(t, hash, k, v, fuel);
      BatchStep(t.data, o.table.data, items);
      CrossingCount(t, hash, k, v, |items|, fuel);
    }
  }

  lemma CrossingCount<K, V>(t: Table<K, V>, hash: K -> Int32, key: K, value: V, n: nat, fuel: nat)
    requires Valid(t) && Overloaded(t.loadFactor, |t.data|, t.size + n)
    ensures var o := Put(t, hash, Some(key), Some(value), fuel);
      o.Done? && o.result.None? && |o.table.data| == |t.data| ==>
        n > 1 && Overloaded(o.table.loadFactor, |o.table.data|, o.table.size + (n - 1))
  {
    PutGrowth(t, hash, key, value, fuel);
  }

  /** While `size` stays below the threshold, `putAll` never runs out of
      fuel: no `put` in it resizes. */
  lemma {:induction false} PutAllNoOutOfFuel<K, V>(t: Table<K, V>, hash: K -> Int32, items: seq<Item<K, V>>, fuel: nat)
    requires Valid(t) && !Overloaded(t.loadFactor, |t.data|, t.size + |items|)
    decreases |items|
    ensures !PutAll(t, hash, Some(items), fuel).OutOfFuel?
  {
    if |items| > 0 {
      var k, v := items[0].key, items[0].value;
      var o := Put(t, hash, Some(k), Some(v), fuel);
      PutAllShape(t, hash, items, fuel);
      OverloadedMonotone(t.loadFactor, |t.data|, t.size + 1, t.size + |items|);
      PutShape(t, hash, k, v, fuel);
      if o.Done? {
        PutGrowth(t, hash, k, v, fuel);
        OverloadedMonotone(t.loadFactor, |t.data|, o.table.size + |items[1..]|, t.size + |items|);
        PutAllNoOutOfFuel(o.table, hash, items[1..], fuel);
      }
    }
  }

  /** `OutOfFuel` only reports nesting: with fuel left, a resize whose
      re-insertion stays below the new threshold never runs out of it. */
  lemma UpdateTableNoOutOfFuel<K, V>(t: Table<K, V>, hash: K -> Int32, fuel: nat)
    requires Valid(t) && fuel > 0
    requires !Overloaded(t.loadFactor, 2 * |t.data| + 1, t.size + |Snapshot(t.data)|)
    ensures !UpdateTable(t, hash, fuel).OutOfFuel?
  {
    RefillNoOutOfFuel(t, hash, fuel - 1);
    UpdateTableAborts(t, hash, fuel);
  }

  lemma RefillNoOutOfFuel<K, V>(t: Table<K, V>, hash: K -> Int32, fuel: nat)
    requires Valid(t)
    requires !Overloaded(t.loadFactor, 2 * |t.data| + 1, t.size + |Snapshot(t.data)|)
    ensures !Refill(t, hash, fuel).OutOfFuel?
  {
    var e, items := Emptied(t), Reinsertion(t.data);
    ReinsertionFresh(t);
    PutAllNoOutOfFuel(e, hash, items, fuel);
    RefillShape(t, hash, fuel);
  }

  /** `updateTable` runs out of fuel only where its `putAll` does. A
      separate step so that `UpdateTableNoOutOfFuel` stays within the
      solver's budget. */
  lemma UpdateTableAborts<K, V>(t: Table<K, V>, hash: K -> Int32, fuel: nat)
    requires Valid(t) && fuel > 0
    ensures UpdateTable(t, hash, fuel).OutOfFuel? ==> Refill(t, hash, fuel - 1).OutOfFuel?
  {
  }

  /** A `put` runs out of fuel only through a resize that nests: its fresh
      insert reached the threshold, and either no fuel was left or the
      re-insertion reaches the threshold of the enlarged array too. */
  lemma PutOutOfFuel<K, V>(t: Table<K, V>, hash: K -> Int32, key: K, value: V, fuel: nat)
    requires Valid(t)
    ensures var w := Write(t.data, key, value, HashFunction1(hash(key), |t.data|), HashFunction2(hash(key), |t.data|));
      Put(t, hash, Some(key), Some(value), fuel).OutOfFuel? ==>
        w.Fresh? && Overloaded(t.loadFactor, |t.data|, t.size + 1) &&
        (fuel == 0 || Overloaded(t.loadFactor, 2 * |t.data| + 1, t.size + 1 + |Snapshot(w.data)|))
  {
    PutAborts(t, hash, key, value, fuel);
    FreshResizeCompletes(t, hash, key, value, fuel);
  }

  /** The resize after a fresh insert completes when fuel is left and the
      re-insertion stays below the enlarged array's threshold. Kept apart
      from `PutOutOfFuel` so that its proof never unfolds `put`. */
  lemma FreshResizeCompletes<K, V>(t: Table<K, V>, hash: K -> Int32, key: K, value: V, fuel: nat)
    requires Valid(t)
    ensures var w := Write(t.data, key, value, HashFunction1(hash(key), |t.data|), HashFunction2(hash(key), |t.data|));
      w.Fresh? && fuel > 0 && !Overloaded(t.loadFactor, 2 * |t.data| + 1, t.size + 1 + |Snapshot(w.data)|) ==>
        !UpdateTable(t.(data := w.data, size := t.size + 1), hash, fuel).OutOfFuel?
  {
    var w := Write(t.data, key, value, HashFunction1(hash(key), |t.data|), HashFunction2(hash(key), |t.data|));
    if w.Fresh? && fuel > 0 && !Overloaded(t.loadFactor, 2 * |t.data| + 1, t.size + 1 + |Snapshot(w.data)|) {
      UpdateTableNoOutOfFuel(t.(data := w.data, size := t.size + 1), hash, fuel);
    }
  }

  /** `put` runs out of fuel only where the resize after its fresh insert
      does. A separate step so that `PutOutOfFuel` stays within the solver's
      budget. */
  lemma PutAborts<K, V>(t: Table<K, V>, hash: K -> Int32, key: K, value: V, fuel: nat)
    requires Valid(t)
    ensures var w := Write(t.data, key, value, HashFunction1(hash(key), |t.data|), HashFunction2(hash(key), |t.data|));
      Put(t, hash, Some(key), Some(value), fuel).OutOfFuel? ==>
        w.Fresh? && Overloaded(t.loadFactor, |t.data|, t.size + 1) &&
        UpdateTable(t.(data := w.data, size := t.size + 1), hash, fuel).OutOfFuel?
  {
  }

  /** With something to re-insert, `updateTable` ends at capacity
      `2 * capacity + 1` exactly when the re-insertion, which counts on from
      the old `size`, stays below the new threshold; otherwise resizes nest
      and the capacity is larger. */
  lemma UpdateTableCapacity<K, V>(t: Table<K, V>, hash: K -> Int32, fuel: nat)
    requires Valid(t)
    ensures var r := UpdateTable(t, hash, fuel);
      r.Done? && |Snapshot(t.data)| > 0 ==>
        (|r.table.data| == 2 * |t.data| + 1 <==>
          !Overloaded(t.loadFactor, 2 * |t.data| + 1, t.size + |Snapshot(t.data)|))
  {
    if fuel > 0 {
      UpdateTableFits(t, hash, fuel, !Overloaded(t.loadFactor, 2 * |t.data| + 1, t.size + |Snapshot(t.data)|));
    }
  }

  /** `UpdateTableCapacity` with the outcome of the threshold test named
      `fits`; the boolean keeps the nonlinear threshold out of the unfolded
      resize, which keeps the proof within the solver's budget. */
  lemma UpdateTableFits<K, V>(t: Table<K, V>, hash: K -> Int32, fuel: nat, fits: bool)
    requires Valid(t) && fuel > 0
    requires fits == !Overloaded(t.loadFactor, 2 * |t.data| + 1, t.size + |Snapshot(t.data)|)
    ensures var r := UpdateTable(t, hash, fuel);
      r.Done? && |Snapshot(t.data)| > 0 ==> (|r.table.data| == 2 * |t.data| + 1 <==> fits)
  {
    RefillCapacity(t, hash, fuel - 1);
    UpdateTableShape(t, hash, fuel);
  }

  lemma RefillCapacity<K, V>(t: Table<K, V>, hash: K -> Int32, fuel: nat)
    requires Valid(t)
    ensures var o := Refill(t, hash, fuel);
      o.Done? && |Snapshot(t.data)| > 0 ==>
        (|o.table.data| == 2 * |t.data| + 1 <==>
          !Overloaded(t.loadFactor, 2 * |t.data| + 1, t.size + |Snapshot(t.data)|))
  {
    var e, items := Emptied(t), Reinsertion(t.data);
    RefillShape(t, hash, fuel);
    ReinsertionFresh(t);
    PutAllCapacity(e, hash, items, fuel, e.loadFactor, |e.data|, e.size + |items|);
  }

  /** `updateTable` with fuel left is `Refill` with one unit less, with
      `size` then set to the snapshot's size. */
  lemma UpdateTableShape<K, V>(t: Table<K, V>, hash: K -> Int32, fuel: nat)
    requires Valid(t) && fuel > 0
    ensures var r, o := UpdateTable(t, hash, fuel), Refill(t, hash, fuel - 1);
      (r.Done? <==> o.Done?) &&
      (r.Done? ==> r.table == o.table.(size := |Snapshot(t.data)|) && r.table.data == o.table.data)
  {
  }

  /** A resize result that shares its slots with a rebuilt array, and whose
      `size` is the rebuilt map's size, is itself rebuilt. It takes the
      outcomes as values so that its caller never unfolds `put` or `putAll`,
      which keeps that proof within the solver's budget. */
  lemma RebuiltCopy<K, V>(r: Outcome<K, V, ()>, o: Outcome<K, V, ()>, m: map<K, V>)
    requires (r.Done? <==> o.Done?) && (r.Done? ==> r.table.data == o.table.data && r.table.size == |m|)
    requires o.Done? ==> NoDup(o.table.data) && Snapshot(o.table.data) == m && Count(o.table.data) == |m|
    ensures r.Done? ==> NoDup(r.table.data) && Snapshot(r.table.data) == m && r.table.size == Count(r.table.data)
  {
  }

  /** `Refill` is the `putAll` of the re-insertion order into the emptied
      array. */
  lemma RefillShape<K, V>(t: Table<K, V>, hash: K -> Int32, fuel: nat)
    requires Valid(t)
    ensures Refill(t, hash, fuel) == PutAll(Emptied(t), hash, Some(Reinsertion(t.data)), fuel)
  {
  }

  /** The re-insertion order is a fresh batch for the emptied array, and
      re-inserting it counts `size` on from the old value. */
  lemma ReinsertionFresh<K, V>(t: Table<K, V>)
    requires Valid(t)
    ensures var e, items := Emptied(t), Reinsertion(t.data);
      FreshBatch(e.data, items) && e.size + |items| == t.size + |Snapshot(t.data)| && |e.data| == 2 * |t.data| + 1
  {
    ReinsertionSnapshot(t.data);
  }

  /** A batch of distinct new keys resizes exactly when it carries `size` to
      the threshold. */
  lemma PutAllCapacity<K, V>(t: Table<K, V>, hash: K -> Int32, items: seq<Item<K, V>>, fuel: nat,
                             loadFactor: real, capacity: nat, size: int)
    requires Valid(t) && FreshBatch(t.data, items)
    requires loadFactor == t.loadFactor && capacity == |t.data| && size == t.size + |items|
    ensures var r := PutAll(t, hash, Some(items), fuel);
      r.Done? && |items| > 0 ==>
        (|r.table.data| == capacity <==> !Overloaded(loadFactor, capacity, size))
  {
    if Overloaded(t.loadFactor, |t.data|, t.size + |items|) {
      if |items| > 0 {
        PutAllCrossesThreshold(t, hash, items, fuel);
      }
    } else {
      PutAllWithinThreshold(t, hash, items, fuel);
    }
  }

}

=== FILE: removal.dfy ===
/** `remove(key)`: probe the first `capacity` positions of the key's
    sequence, clear the first slot that holds the key and decrement `size`.
    Unlike `put`, the scan does not stop at an empty slot, so a key stays
    removable after the slots before it were emptied. */
module Removal {
  import opened JavaLang
  import opened Probing
  import opened HashTable

  /** Attempt `j` of `remove`'s scan meets the key. */
  predicate Holds<K(==), V>(data: seq<Slot<K, V>>, key: K, h1: nat, h2: nat, j: nat)
    requires |data| > 0
  {
    var p := Probe(h1, h2, j, |data|);
    data[p].Some? && data[p].value.key == key
  }

  /** The first attempt `j` in `[i, capacity)` that meets the key. */
  function FindKey<K(==), V>(data: seq<Slot<K, V>>, key: K, h1: nat, h2: nat, i: nat): (r: Option<nat>)
    requires 0 < |data| && i <= |data|
    ensures r.Some? ==> i <= r.value < |data| && Holds(data, key, h1, h2, r.value)
    ensures r.Some? ==> forall j :: i <= j < r.value ==> !Holds(data, key, h1, h2, j)
    ensures r.None? ==> forall j :: i <= j < |data| ==> !Holds(data, key, h1, h2, j)
    decreases |data| - i
  {
    if i == |data| then None
    else if Holds(data, key, h1, h2, i) then Some(i)
    else FindKey(data, key, h1, h2, i + 1)
  }

  /** The table after `remove` and the value it returns (`null` as `None`). */
  datatype Removed<K, V> = Removed(table: Table<K, V>, previous: Option<V>)

  /** `remove(key)`: `null` is refused; otherwise the first slot of the
      scan that holds the key is emptied, `size` drops by one and the old
      value is returned, or nothing changes and the answer is `null`. */
  function Remove<K(==), V(==)>(t: Table<K, V>, hash: K -> Int32, key: Option<K>): (r: Result<Removed<K, V>>)
    requires Valid(t)
    ensures r.Err? <==> key.None?
    ensures r.Err? ==> r.error == NullPointerException
    ensures r.Ok? ==> Valid(r.value.table) && |r.value.table.data| == |t.data| && r.value.table.loadFactor == t.loadFactor
    ensures r.Ok? && r.value.previous.None? ==> r.value.table == t
    ensures r.Ok? && r.value.previous.Some? ==>
      r.value.table.size == t.size - 1 &&
      exists p :: 0 <= p < |t.data| && t.data[p] == Some(Item(key.value, r.value.previous.value)) &&
        r.value.table.data == t.data[p := None]
    ensures r.Ok? ==>
      var h1, h2 := HashFunction1(hash(key.value), |t.data|), HashFunction2(hash(key.value), |t.data|);
      (r.value.previous.Some? <==> exists j :: 0 <= j < |t.data| && Holds(t.data, key.value, h1, h2, j))
    ensures r.Ok? && r.value.previous.Some? ==>
      var h1, h2 := HashFunction1(hash(key.value), |t.data|), HashFunction2(hash(key.value), |t.data|);
      exists j :: 0 <= j < |t.data| && Holds(t.data, key.value, h1, h2, j) &&
        (forall i :: 0 <= i < j ==> !Holds(t.data, key.value, h1, h2, i)) &&
        r.value.table.data == t.data[Probe(h1, h2, j, |t.data|) := None]
  {
    if key.None? then Err(NullPointerException)
    else
      var k := key.value;
      var h1, h2 := HashFunction1(hash(k), |t.data|), HashFunction2(hash(k), |t.data|);
      match FindKey(t.data, k, h1, h2, 0)
      case None => Ok(Removed(t, None))
      case Some(j) =>
        var p := Probe(h1, h2, j, |t.data|);
        assert t.data[p] == Some(Item(k, t.data[p].value.value));
        Ok(Removed(t.(data := t.data[p := None], size := t.size - 1), Some(t.data[p].value.value)))
  }

  /** A key stored at its home slot `h1` is removed from there at the first
      attempt. */
  lemma RemoveAtHome<K, V>(t: Table<K, V>, hash: K -> Int32, key: K)
    requires Valid(t)
    requires var h1 := HashFunction1(hash(key), |t.data|); t.data[h1].Some? && t.data[h1].value.key == key
    ensures var h1 := HashFunction1(hash(key), |t.data|);
      Remove(t, hash, Some(key)) ==
      Ok(Removed(t.(data := t.data[h1 := None], size := t.size - 1), Some(t.data[h1].value.value)))
  {
    var h1, h2 := HashFunction1(hash(key), |t.data|), HashFunction2(hash(key), |t.data|);
    assert Holds(t.data, key, h1, h2, 0);
  }

  /** When every item sits on its own probe sequence, `remove` finds exactly
      the keys the table holds. */
  lemma RemoveFindsPlaced<K, V>(t: Table<K, V>, hash: K -> Int32, key: K)
    requires Valid(t) && Placed(t, hash)
    ensures var r := Remove(t, hash, Some(key));
      r.Ok? && (r.value.previous.Some? <==> key in KeysOf(t.data))
  {
    var h1, h2 := HashFunction1(hash(key), |t.data|), HashFunction2(hash(key), |t.data|);
    if key in KeysOf(t.data) {
      var p :| 0 <= p < |t.data| && t.data[p].Some? && t.data[p].value.key == key;
      assert OnChain(hash, key, p, |t.data|);
      var j :| 0 <= j < |t.data| && Probe(h1, h2, j, |t.data|) == p;
      assert Holds(t.data, key, h1, h2, j);
    }
  }

  /** Emptying a slot keeps every other item on its probe sequence. */
  lemma RemoveKeepsPlaced<K, V>(t: Table<K, V>, hash: K -> Int32, key: K)
    requires Valid(t) && Placed(t, hash)
    ensures var r := Remove(t, hash, Some(key));
      r.Ok? && Placed(r.value.table, hash)
  {
    var r := Remove(t, hash, Some(key));
    if r.value.previous.Some? {
      var p :| 0 <= p < |t.data| && t.data[p] == Some(Item(key, r.value.previous.value)) &&
        r.value.table.data == t.data[p := None];
      var d := r.value.table.data;
      forall q | 0 <= q < |d| && d[q].Some? ensures OnChain(hash, d[q].value.key, q, |d|) {
        assert d[q] == t.data[q];
      }
    }
  }

  /** `remove` keeps `size` equal to the number of occupied slots. */
  lemma RemoveKeepsCount<K, V>(t: Table<K, V>, hash: K -> Int32, key: K)
    requires Valid(t) && t.size == Count(t.data)
    ensures var r := Remove(t, hash, Some(key));
      r.Ok? && r.value.table.size == Count(r.value.table.data)
  {
    var r := Remove(t, hash, Some(key));
    if r.value.previous.Some? {
      var p :| 0 <= p < |t.data| && t.data[p] == Some(Item(key, r.value.previous.value)) &&
        r.value.table.data == t.data[p := None];
      CountUpdate(t.data, p, None);
    }
  }

  /** Clearing the slot of a key that occurs once removes exactly that key
      from the abstract map. */
  lemma ClearSlot<K, V>(data: seq<Slot<K, V>>, p: nat)
    requires NoDup(data) && p < |data| && data[p].Some?
    ensures NoDup(data[p := None])
    ensures Snapshot(data[p := None]) == Snapshot(data) - {data[p].value.key}
  {
    var d, k := data[p := None], data[p].value.key;
    forall i, j | 0 <= i < |d| && 0 <= j < |d| && d[i].Some? && d[j].Some? && d[i].value.key == d[j].value.key
      ensures i == j
    {
      assert d[i] == data[i] && d[j] == data[j];
    }
    assert KeysOf(d) == KeysOf(data) - {k} by {
      forall x | x in KeysOf(d) ensures x in KeysOf(data) - {k} {
        var i :| 0 <= i < |d| && d[i].Some? && d[i].value.key == x;
        assert d[i] == data[i];
      }
      forall x | x in KeysOf(data) - {k} ensures x in KeysOf(d) {
        var i :| 0 <= i < |data| && data[i].Some? && data[i].value.key == x;
        assert d[i] == data[i];
      }
    }
    forall x | x in Snapshot(d) ensures Snapshot(d)[x] == Snapshot(data)[x] {
      var i :| 0 <= i < |d| && d[i].Some? && d[i].value.key == x;
      SnapshotValue(d, i);
      assert d[i] == data[i];
      SnapshotValue(data, i);
    }
  }

  /** Under the table invariant `remove(key)` deletes `key` from the abstract
      map, returns the value the map held for it (or `null`), and keeps the
      invariant. */
  lemma RemoveDeletes<K, V>(t: Table<K, V>, hash: K -> Int32, key: K)
    requires Inv(t, hash)
    ensures var r := Remove(t, hash, Some(key));
      r.Ok? && Inv(r.value.table, hash) &&
      Snapshot(r.value.table.data) == Snapshot(t.data) - {key} &&
      r.value.previous == (if key in Snapshot(t.data) then Some(Snapshot(t.data)[key]) else None)
  {
    var r := Remove(t, hash, Some(key));
    RemoveFindsPlaced(t, hash, key);
    RemoveKeepsPlaced(t, hash, key);
    RemoveKeepsCount(t, hash, key);
    if r.value.previous.Some? {
      var p :| 0 <= p < |t.data| && t.data[p] == Some(Item(key, r.value.previous.value)) &&
        r.value.table.data == t.data[p := None];
      ClearSlot(t.data, p);
      SnapshotValue(t.data, p);
    } else {
      assert Snapshot(t.data) - {key} == Snapshot(t.data);
    }
  }

  /** After `remove(key)` on a table that keeps the invariant, `get(key)`
      answers `null` and `get` of every other key is unchanged. */
  lemma RemoveThenGet<K, V>(t: Table<K, V>, hash: K -> Int32, key: K, other: K)
    requires Inv(t, hash)
    ensures var r := Remove(t, hash, Some(key));
      r.Ok? && Get(r.value.table, Some(key)) == Ok(None) &&
      (other != key ==> Get(r.value.table, Some(other)) == Get(t, Some(other)))
  {
    var r := Remove(t, hash, Some(key));
    RemoveDeletes(t, hash, key);
    GetMatchesSnapshot(r.value.table, key);
    GetMatchesSnapshot(r.value.table, other);
    GetMatchesSnapshot(t, other);
  }
}

=== FILE: scenarios.dfy ===
/** Concrete scenarios proved of the model,
    including the behaviours that differ from `java.util.Map`'s contract.
    Keys are `Integer`s, whose hash code is their value. */
module Scenarios {
  import opened JavaLang
  import opened Probing
  import opened HashTable
  import opened Insertion
  import opened Removal
  import opened PutProperties

  /** `Integer.hashCode`: every key is its own hash code. */
  predicate IntegerCodes(hash: Int32 -> Int32)
  {
    forall k: Int32 :: hash(k) == k
  }

  /** `loadFactor * capacity` for the tables below. */
  lemma Thresholds()
    ensures Threshold(0.75, 2) == 1.5 && Threshold(0.75, 3) == 2.25
    ensures Threshold(0.5, 5) == 2.5 && Threshold(0.5, 11) == 5.5
  {
  }

  // ---------------------------------------------------------------------
  // Capacity 3: keys 3 and 6 share the probe sequence 0, 1, 2
  // ---------------------------------------------------------------------

  lemma MultiplesOfThree(hash: Int32 -> Int32)
    requires IntegerCodes(hash)
    ensures HashFunction1(hash(3), 3) == 0 && HashFunction2(hash(3), 3) == 1
    ensures HashFunction1(hash(6), 3) == 0 && HashFunction2(hash(6), 3) == 1
  {
    assert Wrap(3 * CONST) == 51 && Wrap(Wrap(3 * CONST) + 1) == 52;
    assert Wrap(6 * CONST) == 102 && Wrap(Wrap(6 * CONST) + 1) == 103;
  }

  /** `new HashTable(3)` after `put(3, 10)`. */
  function KeyThree(): Table<Int32, int>
  {
    Table([Some(Item(3, 10)), None, None], 1, 0.75)
  }

  /** ... and then `put(6, 20)`: key 6 finds slot 0 taken and moves on. */
  function TwoKeys(): Table<Int32, int>
  {
    Table([Some(Item(3, 10)), Some(Item(6, 20)), None], 2, 0.75)
  }

  /** `new HashTable(3)`. */
  function EmptyThree(): Table<Int32, int>
  {
    Table([None, None, None], 0, 0.75)
  }

  lemma NewThree()
    ensures NewWithCapacity<Int32, int>(3) == Ok(EmptyThree())
  {
    var d: seq<Slot<Int32, int>> := seq(3, _ => None);
    assert d[0] == d[1] == d[2] == None;
    assert d == EmptyThree().data;
  }

  lemma BuildKeyThree(hash: Int32 -> Int32)
    requires IntegerCodes(hash)
    ensures Put(EmptyThree(), hash, Some(3), Some(10), 0) == Done(KeyThree(), None)
  {
    MultiplesOfThree(hash);
    Thresholds();
    var t0 := EmptyThree();
    PutFreshAt(t0, hash, 3, 10, 0, 0);
    assert t0.data[0 := Some(Item(3, 10))] == KeyThree().data;
  }

  lemma BuildTwoKeys(hash: Int32 -> Int32)
    requires IntegerCodes(hash)
    ensures Put(KeyThree(), hash, Some(6), Some(20), 0) == Done(TwoKeys(), None)
  {
    MultiplesOfThree(hash);
    Thresholds();
    var t := KeyThree();
    assert Probe(0, 1, 1, 3) == 1 && Blocked(t.data, 6, 0, 1, 0);
    PutFreshAt(t, hash, 6, 20, 0, 1);
    assert t.data[1 := Some(Item(6, 20))] == TwoKeys().data;
  }

  /** `get` finds both keys. */
  lemma TwoKeysGet()
    ensures Get(TwoKeys(), Some(3)) == Ok(Some(10)) && Get(TwoKeys(), Some(6)) == Ok(Some(20))
  {
  }

  /** `put(6, 99)`: key 6 is met at attempt 1, and `put` answers with the
      value of the item at attempt 0 (key 3's value 10), not the value it
      replaces (20). */
  lemma WrongPreviousValue(hash: Int32 -> Int32)
    requires IntegerCodes(hash)
    ensures Put(TwoKeys(), hash, Some(6), Some(99), 0) ==
      Done(TwoKeys().(data := [Some(Item(3, 10)), Some(Item(6, 99)), None]), Some(10))
  {
    MultiplesOfThree(hash);
    var t := TwoKeys();
    assert Probe(0, 1, 1, 3) == 1 && Blocked(t.data, 6, 0, 1, 0);
    PutReplaceAt(t, hash, 6, 99, 0, 1);
    assert t.data[1 := Some(Item(6, 99))] == [Some(Item(3, 10)), Some(Item(6, 99)), None];
  }

  /** `TwoKeys` after `remove(3)`: slot 0 is empty again, key 6 stays at slot 1. */
  function OneLeft(): Table<Int32, int>
  {
    Table([None, Some(Item(6, 20)), None], 1, 0.75)
  }

  lemma RemoveFirst(hash: Int32 -> Int32)
    requires IntegerCodes(hash)
    ensures Remove(TwoKeys(), hash, Some(3)) == Ok(Removed(OneLeft(), Some(10)))
  {
    MultiplesOfThree(hash);
    RemoveAtHome(TwoKeys(), hash, 3);
    assert TwoKeys().data[0 := None] == OneLeft().data;
  }

  /** `put(6, 30)` next: probing stops at the emptied slot 0 before it
      reaches key 6, so the key is stored a second time and the answer is
      `null` although `containsKey(6)` held. */
  lemma DuplicateAfterRemove(hash: Int32 -> Int32)
    requires IntegerCodes(hash)
    ensures Put(OneLeft(), hash, Some(6), Some(30), 0) == Done(Doubled(), None)
  {
    MultiplesOfThree(hash);
    Thresholds();
    PutFreshAt(OneLeft(), hash, 6, 30, 0, 0);
    assert OneLeft().data[0 := Some(Item(6, 30))] == Doubled().data;
  }

  /** The table `DuplicateAfterRemove` produces. */
  function Doubled(): Table<Int32, int>
  {
    Table([Some(Item(6, 30)), Some(Item(6, 20)), None], 2, 0.75)
  }

  /** Key 6 was present before that `put`; afterwards the table holds it
      twice, and `size` counts two entries for one key. */
  lemma DoubledKey()
    ensures ContainsKey(OneLeft(), Some(6)) == Ok(true)
    ensures !NoDup(Doubled().data) && KeySet(Doubled()) == {6} && Size(Doubled()) == 2
  {
    var d := Doubled().data;
    assert d[0].value.key == d[1].value.key;
    assert KeysOf(d) == {6} by {
      assert d[0].value.key == 6;
    }
  }

  /** `clear()` leaves the items in place: the table reports itself empty
      while `get` still finds key 6, and a later `remove(3)` takes `size`
      below zero. */
  lemma ClearKeepsItems(hash: Int32 -> Int32)
    requires IntegerCodes(hash)
    ensures var c := Clear(TwoKeys());
      IsEmpty(c) && Get(c, Some(6)) == Ok(Some(20)) &&
      Remove(c, hash, Some(3)) == Ok(Removed(OneLeft().(size := -1), Some(10)))
  {
    MultiplesOfThree(hash);
    RemoveAtHome(Clear(TwoKeys()), hash, 3);
    assert TwoKeys().data[0 := None] == OneLeft().data;
  }

  // ---------------------------------------------------------------------
  // Capacity 2: odd keys start at slot 1 with step 0
  // ---------------------------------------------------------------------

  lemma OddKeys(hash: Int32 -> Int32)
    requires IntegerCodes(hash)
    ensures HashFunction1(hash(1), 2) == 1 && HashFunction2(hash(1), 2) == 0
    ensures HashFunction1(hash(3), 2) == 1 && HashFunction2(hash(3), 2) == 0
  {
    assert Wrap(1 * CONST) == 17 && Wrap(Wrap(1 * CONST) + 1) == 18;
    assert Wrap(3 * CONST) == 51 && Wrap(Wrap(3 * CONST) + 1) == 52;
  }

  /** `new HashTable(2)` after `put(1, 10)`: key 1 sits at slot 1. */
  function OneOfTwo(): Table<Int32, int>
  {
    Table([None, Some(Item(1, 10))], 1, 0.75)
  }

  /** `new HashTable(2)`. */
  function EmptyTwo(): Table<Int32, int>
  {
    Table([None, None], 0, 0.75)
  }

  lemma NewTwo()
    ensures NewWithCapacity<Int32, int>(2) == Ok(EmptyTwo())
  {
    var d: seq<Slot<Int32, int>> := seq(2, _ => None);
    assert d[0] == d[1] == None;
    assert d == EmptyTwo().data;
  }

  lemma BuildOneOfTwo(hash: Int32 -> Int32)
    requires IntegerCodes(hash)
    ensures Put(EmptyTwo(), hash, Some(1), Some(10), 0) == Done(OneOfTwo(), None)
  {
    OddKeys(hash);
    var t0 := EmptyTwo();
    var w := Write(t0.data, 1, 10, 1, 0);
    assert w == Fresh(OneOfTwo().data, 0, 1) by {
      assert FindStop(t0.data, 1, 1, 0, 0) == Some(0);
    }
    assert !Overloaded(0.75, 2, 1) by {
      Thresholds();
    }
    PutShape(t0, hash, 1, 10, 0);
  }

  /** `put(3, 30)` next: the step is 0, so every attempt examines slot 1 and
      the loop never ends, although slot 0 is free. */
  lemma Divergence(hash: Int32 -> Int32)
    requires IntegerCodes(hash)
    ensures OneOfTwo().data[0].None?
    ensures Put(OneOfTwo(), hash, Some(3), Some(30), 0) == Diverges
  {
    OddKeys(hash);
    var t := OneOfTwo();
    forall i: nat ensures Blocked(t.data, 3, 1, 0, i) {
      assert Probe(1, 0, i, 2) == 1;
    }
    PutLoopsForever(t, hash, 3, 30, 0);
  }

  // ---------------------------------------------------------------------
  // Capacity 5, load factor 0.5: a resize that keeps a stale value. Keys 3
  // and 8 share the probe sequence 1, 3, 0, 2, 4; key 2 starts at 4.
  // ---------------------------------------------------------------------

  lemma FiveSlots(hash: Int32 -> Int32)
    requires IntegerCodes(hash)
    ensures HashFunction1(hash(3), 5) == 1 && HashFunction2(hash(3), 5) == 2
    ensures HashFunction1(hash(8), 5) == 1 && HashFunction2(hash(8), 5) == 2
    ensures HashFunction1(hash(2), 5) == 4 && HashFunction2(hash(2), 5) == 0
    ensures HashFunction1(hash(8), 11) == 4 && HashFunction1(hash(2), 11) == 1
  {
    assert Wrap(3 * CONST) == 51 && Wrap(Wrap(3 * CONST) + 1) == 52;
    assert Wrap(8 * CONST) == 136 && Wrap(Wrap(8 * CONST) + 1) == 137;
    assert Wrap(2 * CONST) == 34 && Wrap(Wrap(2 * CONST) + 1) == 35;
  }

  /** A table with load factor 0.5. */
  function Half(data: seq<Slot<Int32, int>>, size: int): Table<Int32, int>
  {
    Table(data, size, 0.5)
  }

  /** `new HashTable(5, 0.5f)` after `put(3, 1)` and `put(8, 2)`: key 8 sits
      at attempt 1 of its sequence, behind key 3. */
  function ThreeThenEight(): Table<Int32, int>
  {
    Half([None, Some(Item(3, 1)), None, Some(Item(8, 2)), None], 2)
  }

  lemma NewFive()
    ensures New<Int32, int>(5, Finite(0.5)) == Ok(Half([None, None, None, None, None], 0))
  {
    var d: seq<Slot<Int32, int>> := seq(5, _ => None);
    assert d[0] == d[1] == d[2] == d[3] == d[4] == None;
    assert d == [None, None, None, None, None];
  }

  lemma BuildThree(hash: Int32 -> Int32)
    requires IntegerCodes(hash)
    ensures Put(Half([None, None, None, None, None], 0), hash, Some(3), Some(1), 0)
      == Done(Half([None, Some(Item(3, 1)), None, None, None], 1), None)
  {
    FiveSlots(hash);
    Thresholds();
    var t0 := Half([None, None, None, None, None], 0);
    PutFreshAt(t0, hash, 3, 1, 0, 0);
    assert t0.data[1 := Some(Item(3, 1))] == [None, Some(Item(3, 1)), None, None, None];
  }

  lemma BuildThreeThenEight(hash: Int32 -> Int32)
    requires IntegerCodes(hash)
    ensures Put(Half([None, Some(Item(3, 1)), None, None, None], 1), hash, Some(8), Some(2), 0)
      == Done(ThreeThenEight(), None)
  {
    FiveSlots(hash);
    var t := Half([None, Some(Item(3, 1)), None, None, None], 1);
    EightBehindThree(t.data);
    assert !Overloaded(0.5, 5, 2) by {
      Thresholds();
    }
    PutShape(t, hash, 8, 2, 0);
  }

  /** Key 8 meets key 3 at slot 1 and stops at slot 3, its attempt 1. */
  lemma EightBehindThree(data: seq<Slot<Int32, int>>)
    requires data == [None, Some(Item(3, 1)), None, None, None]
    ensures Write(data, 8, 2, 1, 2) == Fresh(ThreeThenEight().data, 1, 3)
  {
    assert Probe(1, 2, 1, 5) == 3;
    assert FindStop(data, 8, 1, 2, 1) == Some(1);
    assert Blocked(data, 8, 1, 2, 0);
    assert FindStop(data, 8, 1, 2, 0) == Some(1);
    assert data[3 := Some(Item(8, 2))] == ThreeThenEight().data;
  }

  /** Then `remove(3)` and `put(2, 3)`: slot 1, where key 8's sequence
      starts, is empty again. */
  function Stale(): Table<Int32, int>
  {
    Half([None, None, None, Some(Item(8, 2)), Some(Item(2, 3))], 2)
  }

  lemma RemoveThree(hash: Int32 -> Int32)
    requires IntegerCodes(hash)
    ensures Remove(ThreeThenEight(), hash, Some(3))
      == Ok(Removed(Half([None, None, None, Some(Item(8, 2)), None], 1), Some(1)))
  {
    FiveSlots(hash);
    RemoveAtHome(ThreeThenEight(), hash, 3);
    assert ThreeThenEight().data[1 := None] == [None, None, None, Some(Item(8, 2)), None];
  }

  lemma BuildStale(hash: Int32 -> Int32)
    requires IntegerCodes(hash)
    ensures Put(Half([None, None, None, Some(Item(8, 2)), None], 1), hash, Some(2), Some(3), 0)
      == Done(Stale(), None)
  {
    FiveSlots(hash);
    var t := Half([None, None, None, Some(Item(8, 2)), None], 1);
    assert Write(t.data, 2, 3, 4, 0) == Fresh(Stale().data, 0, 4) by {
      assert FindStop(t.data, 2, 4, 0, 0) == Some(0);
      assert t.data[4 := Some(Item(2, 3))] == Stale().data;
    }
    assert !Overloaded(0.5, 5, 2) by {
      Thresholds();
    }
    PutShape(t, hash, 2, 3, 0);
  }

  /** `put(8, 4)` on `Stale` before its resize check: probing stops at the
      empty slot 1, so key 8 is written a second time, and `size` reaches
      the threshold 2.5. */
  function Crowded(): Table<Int32, int>
  {
    Half([None, Some(Item(8, 4)), None, Some(Item(8, 2)), Some(Item(2, 3))], 3)
  }

  /** The `moveItems` snapshot keeps the item at the higher index: the old
      value 2. */
  lemma CrowdedSnapshot()
    ensures Reinsertion(Crowded().data) == [Item(8, 2), Item(2, 3)]
    ensures |Snapshot(Crowded().data)| == 2
  {
    var d4: seq<Slot<Int32, int>> := [Some(Item(2, 3))];
    assert Reinsertion(d4) == [Item(2, 3)] by {
      assert d4[1..] == [];
    }
    var d3 := [Some(Item(8, 2))] + d4;
    assert Reinsertion(d3) == [Item(8, 2), Item(2, 3)] by {
      assert d3[1..] == d4;
      assert KeysOf(d4) == {2} by { KeysOfCons(d4); assert d4[1..] == []; }
    }
    var d2 := [None] + d3;
    assert Reinsertion(d2) == Reinsertion(d3) by {
      assert d2[1..] == d3;
    }
    var d1 := [Some(Item(8, 4))] + d2;
    assert Reinsertion(d1) == Reinsertion(d2) by {
      assert d1[1..] == d2;
      assert d2[1] == Some(Item(8, 2));
    }
    var d := [None] + d1;
    assert Reinsertion(d) == Reinsertion(d1) by {
      assert d[1..] == d1;
    }
    assert d == Crowded().data;
    ReinsertionSnapshot(d);
  }

  /** The 11-slot table the resize builds. */
  function Rebuilt(): Table<Int32, int>
  {
    Half([None, Some(Item(2, 3)), None, None, Some(Item(8, 2)), None, None, None, None, None, None], 2)
  }

  /** `putAll` of the snapshot into 11 empty slots; `size` starts at the old 3. */
  lemma Reinsert(hash: Int32 -> Int32)
    requires IntegerCodes(hash)
    ensures PutAll(Emptied(Crowded()), hash, Some([Item(8, 2), Item(2, 3)]), 0)
      == Done(Rebuilt().(size := 5), ())
  {
    FiveSlots(hash);
    Thresholds();
    var e := Emptied(Crowded());
    PutAllShape(e, hash, [Item(8, 2), Item(2, 3)], 0);
    PutFreshAt(e, hash, 8, 2, 0, 0);
    var e1 := e.(data := e.data[4 := Some(Item(8, 2))], size := 4);
    PutAllShape(e1, hash, [Item(2, 3)], 0);
    PutFreshAt(e1, hash, 2, 3, 0, 0);
    assert e1.data[1 := Some(Item(2, 3))] == Rebuilt().data;
  }

  lemma ResizeCrowded(hash: Int32 -> Int32)
    requires IntegerCodes(hash)
    ensures UpdateTable(Crowded(), hash, 1) == Done(Rebuilt(), ())
  {
    CrowdedSnapshot();
    Reinsert(hash);
    UpdateTableShape(Crowded(), hash, 1);
    RefillShape(Crowded(), hash, 0);
  }

  /** `put(8, 4)` on `Stale` answers `null`, resizes, and ends with the
      old item of key 8 only. */
  lemma LostUpdate(hash: Int32 -> Int32)
    requires IntegerCodes(hash)
    ensures Put(Stale(), hash, Some(8), Some(4), 1) == Done(Rebuilt(), None)
  {
    FiveSlots(hash);
    var t := Stale();
    var w := Write(t.data, 8, 4, 1, 2);
    assert w == Fresh(Crowded().data, 0, 1) by {
      assert FindStop(t.data, 8, 1, 2, 0) == Some(0);
    }
    assert Overloaded(0.5, 5, 3) by {
      Thresholds();
    }
    PutShape(t, hash, 8, 4, 1);
    ResizeCrowded(hash);
  }

  /** Before that `put(8, 4)`, `get(8)` answers 2 ... */
  lemma StaleValue()
    ensures Get(Stale(), Some(8)) == Ok(Some(2))
  {
    GetSole(Stale(), 8, 3);
  }

  /** ... and after it as well: the value 4 is lost. */
  lemma UpdateLost()
    ensures Get(Rebuilt(), Some(8)) == Ok(Some(2))
  {
    GetSole(Rebuilt(), 8, 4);
  }

  // ---------------------------------------------------------------------
  // Nested resize: 1 -> 3 -> 7 slots within one `put`
  // ---------------------------------------------------------------------

  /** Key 0 starts its probe sequence at slot 0 for every capacity. */
  lemma ZeroHome(hash: Int32 -> Int32, capacity: int)
    requires IntegerCodes(hash) && capacity > 0
    ensures HashFunction1(hash(0), capacity) == 0
  {
  }

  lemma NestingThresholds()
    ensures Threshold(0.5, 1) == 0.5 && Threshold(0.5, 3) == 1.5 && Threshold(0.5, 7) == 3.5
  {
  }

  /** The slot holding key 0 followed by `n` empty slots. */
  function ZeroThen(n: nat): seq<Slot<Int32, int>>
  {
    [Some(Item(0, 10))] + seq(n, _ => None)
  }

  /** A lone item is the whole re-insertion order and snapshot. */
  lemma LoneItem(n: nat)
    ensures Reinsertion(ZeroThen(n)) == [Item(0, 10)] && |Snapshot(ZeroThen(n))| == 1
  {
    var z: seq<Slot<Int32, int>> := seq(n, _ => None);
    EmptyReinsertion(z);
    ReinsertTake(Some(Item(0, 10)), z, [], {});
    SnapshotSize(ZeroThen(n), [Item(0, 10)]);
  }

  /** Key 0 goes into slot 0 of `capacity` empty slots. */
  lemma FirstWrite(hash: Int32 -> Int32, t: Table<Int32, int>)
    requires IntegerCodes(hash) && Valid(t) && t.data == seq(|t.data|, _ => None)
    ensures Write(t.data, 0, 10, HashFunction1(hash(0), |t.data|), HashFunction2(hash(0), |t.data|))
      == Fresh(ZeroThen(|t.data| - 1), 0, 0)
  {
  }

  /** The inner resize, 3 -> 7 slots: re-inserting key 0 takes `size` from
      2 to 3, below 3.5, so it nests no further. */
  lemma InnerResize(hash: Int32 -> Int32)
    requires IntegerCodes(hash)
    ensures UpdateTable(Half(ZeroThen(2), 2), hash, 1) == Done(Half(ZeroThen(6), 1), ())
  {
    var t := Half(ZeroThen(2), 2);
    var e := Emptied(t);
    LoneItem(2);
    NestingThresholds();
    FirstWrite(hash, e);
    PutShape(e, hash, 0, 10, 0);
    PutAllShape(e, hash, [Item(0, 10)], 0);
    assert [Item(0, 10)][1..] == [];
    RefillShape(t, hash, 0);
    UpdateTableShape(t, hash, 1);
  }

  /** The outer resize, 1 -> 3 slots: re-inserting key 0 takes `size` from
      1 to 2, which reaches 1.5 and resizes again. */
  lemma OuterResize(hash: Int32 -> Int32, fuel: nat)
    requires IntegerCodes(hash)
    ensures var e := Emptied(Half(ZeroThen(0), 1));
      Refill(Half(ZeroThen(0), 1), hash, fuel) == PutAll(e, hash, Some([Item(0, 10)]), fuel) &&
      PutFresh(e, hash, Fresh(ZeroThen(2), 0, 0), fuel, Put(e, hash, Some(0), Some(10), fuel)) &&
      Overloaded(0.5, 3, 2)
  {
    var t := Half(ZeroThen(0), 1);
    var e := Emptied(t);
    LoneItem(0);
    NestingThresholds();
    FirstWrite(hash, e);
    PutShape(e, hash, 0, 10, fuel);
    RefillShape(t, hash, fuel);
  }

  /** With two units of fuel, `put(0, 10)` on `new HashTable(1, 0.5f)`
      resizes twice, 1 -> 3 -> 7, and returns `null`. */
  lemma NestedResize(hash: Int32 -> Int32)
    requires IntegerCodes(hash)
    ensures Put(Half([None], 0), hash, Some(0), Some(10), 2) == Done(Half(ZeroThen(6), 1), None)
  {
    FirstWrite(hash, Half([None], 0));
    NestingThresholds();
    PutShape(Half([None], 0), hash, 0, 10, 2);
    LoneItem(0);
    UpdateTableShape(Half(ZeroThen(0), 1), hash, 2);
    OuterResize(hash, 1);
    InnerResize(hash);
    PutAllShape(Emptied(Half(ZeroThen(0), 1)), hash, [Item(0, 10)], 1);
    assert [Item(0, 10)][1..] == [];
  }

  /** With one unit, the same `put` runs out of fuel in the inner resize. */
  lemma NestedResizeOutOfFuel(hash: Int32 -> Int32)
    requires IntegerCodes(hash)
    ensures Put(Half([None], 0), hash, Some(0), Some(10), 1).OutOfFuel?
  {
    FirstWrite(hash, Half([None], 0));
    NestingThresholds();
    PutShape(Half([None], 0), hash, 0, 10, 1);
    UpdateTableShape(Half(ZeroThen(0), 1), hash, 1);
    OuterResize(hash, 0);
    PutAllShape(Emptied(Half(ZeroThen(0), 1)), hash, [Item(0, 10)], 0);
  }
}
